=== FILE: README.md ===
# Job-board backend: authorization and state transitions

This project models the request handlers of a job-board web backend written in Rust
(actix-web over SQLite). Employers post jobs. Students apply to them. Employers then
accept or reject the applications. An administrator reviews pending posts.

The model is functional. The database is a `Store` of three maps:

- `accounts`, keyed by `unique_id`, which is also the bearer token;
- `posts`, keyed by post id;
- `applications`, keyed by application id.

Each handler is a function from a request and a store to a `Reply`, which holds an
outcome (`Ok`, `BadRequest`, `Unauthorized`, `Forbidden`, `NotFound`, `ServerError`,
or `Aborted` for a panic) and the store afterwards. The listings are methods. They
collect the selected rows into a sequence and, where the SQL says `ORDER BY date DESC`,
sort it with an insertion sort.

The contracts state the following:

- the order in which each handler runs its gates;
- which outcome each gate gives;
- that a rejected request leaves the store unchanged;
- on success, exactly what changes and that nothing else does.

Lemmas relate the handlers to each other:

- registration is followed by the employer onboarding gate;
- recording the agreements opens that gate;
- deleting a post undoes creating it;
- the cascade on delete removes a post's applications;
- every handler that writes (register, update_employer_agreements, create_post, delete_post, update_post in both its corrected and its as-written form, create_application and update_application_status) preserves the invariant "every application refers to an existing post".

The pure helpers are modelled too:

- the default profile of a new account;
- splitting a full name into first and last name;
- the extension and stored name of an upload;
- the extension-to-content-type table of the file server.

These are places where the code does something other than the obvious reading:

- The token is the `Authorization` header with every "Bearer " removed in one
  left-to-right pass (`str::replace`). So "BearBearer er " yields "Bearer "
  (`Auth.TokenMayStillContainPrefix`). A header that is not visible ASCII becomes the
  empty token.
- `delete_post` answers 500, not 404, for a post that does not exist. `update_post`
  answers 404.
- Neither `delete_post` nor `update_post` looks up the account. The token only has to
  equal the post's `employer_id`.
- `create_post` accepts `questions: null`. Every listing reads `questions` as a
  non-null string, so a single selected post with NULL questions turns the whole
  listing into a 500 (`Posts.Query`).
- The onboarding gate of `create_post` is skipped entirely when the profile has no
  `forms.employer` object.
- `get_user` reports `forms` and `tasks` from a constant all-false scaffold, not from
  the stored profile. Recording the agreements therefore never shows up there
  (`Accounts.GetUserScaffoldIgnoresAgreements`).
- `create_application` checks neither the caller's role nor the post's status, nor
  whether the caller already applied.
- `update_application_status` does not consult the current status, so a decision can
  be overwritten.
- `get_received_applications` inner-joins the applicant's account. Applications from
  deleted accounts are silently dropped.
- Registration does not check for an existing email.

External effects are parameters:

- password hashing is a function `hash`;
- verification is a function `verify` that may fail;
- fresh ids (post id, application id, account uuid) are parameters required to be unused;
- the current time is a string parameter;
- upload uuids are parameters.

## Model

| member | source | states |
|---|---|---|
| Text.WordsOfJoin | src/utils/database.rs:15-17 | `split_whitespace` applied to words joined by single spaces returns exactly those words |
| Text.LexLeTransitive | src/utils/routes/posts.rs:142 | the text order used by `ORDER BY date` is transitive |
| Text.LexLeTotal | src/utils/routes/posts.rs:142 | any two dates are comparable in the text order |
| Text.LexLeAntisymmetric | src/utils/routes/posts.rs:142 | two dates that each sort no later than the other are equal |
| Text.RemoveAllAbsent | src/utils/routes/posts.rs:25 | removing "Bearer " from text that does not contain it returns the text unchanged |
| JsonValue.BoolOrFalse | src/utils/routes/posts.rs:86-89 | a flag reads as true only when the field holds the JSON boolean true; a missing or non-boolean field reads as false |
| JsonValue.SetField | src/utils/routes/accounts.rs:294-297 | writing a field turns null into an object, overwrites or inserts that key in an object and keeps every other key, and panics on any other value |
| JsonValue.QuoteStringChanges | src/utils/routes/posts.rs:493 | JSON-encoding a string never gives back the string itself |
| Profile.DefaultProfile | src/data/new_user.rs:59-95 | every student and employer form flag is false; the student tasks are "Complete profile", "Upload resume", "Submit required forms" and the employer tasks "Complete company profile", "Submit required documentation", "Post job opportunities", in that order; the avatar is the project's image |
| Profile.DecodeEncode | src/data/new_user.rs:108-139 | a profile stored by `dump` is read back unchanged by `get_by_uuid` |
| Profile.PassesOnboardingEncoded | src/utils/routes/posts.rs:84-98 | a well-formed profile passes the onboarding gate exactly when all four employer flags are true |
| Profile.DefaultProfileFailsOnboarding | src/data/new_user.rs:66-71 | the default profile of a new account fails the onboarding gate |
| Profile.EmployerSection | src/utils/routes/posts.rs:84-85 | the employer section exists exactly when the profile has `forms` and `forms` has `employer`, and it is then that `employer` value |
| Profile.WriteFlags | src/utils/routes/accounts.rs:293-297 | writing the four flags gives an object whose flags decode to the request and whose other keys are kept; a non-object, non-null section panics |
| Profile.ApplyAgreements | src/utils/routes/accounts.rs:292-299 | without a `forms.employer` section the profile is returned unchanged; a section that is neither object nor null is the panic; otherwise the section's four flags read back as the request, every other key of the section, of `forms` and of the profile is kept |
| Profile.AgreementsOpenGate | src/utils/routes/accounts.rs:294-297 | after all four agreements are written true, the profile passes the onboarding gate |
| Profile.ApplyAgreementsEncoded | src/utils/routes/accounts.rs:292-299 | on a stored profile, recording agreements equals replacing the employer forms of the typed profile |
| Profile.DecodeAfterAgreements | src/utils/routes/accounts.rs:292-303 | on any profile that decodes, recording agreements changes the decoded profile's employer forms and nothing else |
| Auth.BearerToken | src/utils/routes/posts.rs:24-30 | present exactly when the header is; a visible header without "Bearer " is the token itself, and "Bearer " followed by text without "Bearer " yields that text; a header that is not visible ASCII or tab yields the empty token; the token is never longer than the header |
| Auth.BearerTokenRoundTrip | src/utils/routes/posts.rs:25 | a token without spaces comes back from its header whether or not the header carries "Bearer " |
| Auth.TokenMayStillContainPrefix | src/utils/routes/posts.rs:25 | a single removal pass can leave "Bearer " in the token |
| Auth.RequireRole | src/utils/routes/posts.rs:24-59 | access is granted exactly when the header is present, its token names an account, and that account has the role; a missing header or unknown token gives 401; a wrong role gives 403 |
| Store.RequestedStatus | src/utils/routes/applications.rs:276-281 | only "accepted" and "rejected" are valid, and they map to the two decided states; nothing maps back to pending |
| Users.CreateUser | src/data/new_user.rs:55-106 | email, names and account type are kept as given; the password is replaced by its hash; the id is the fresh one; the profile decodes to the default and fails the onboarding gate |
| Users.Dump | src/data/new_user.rs:108-119 | storing adds exactly the new row under its id and leaves every other row unchanged |
| Users.GetByUuid | src/data/new_user.rs:121-139 | the lookup fails with "no row" exactly when the id is unknown, and with a parse error exactly when the stored profile does not decode; otherwise it returns that row: its id, email, password, names, account type and decoded profile |
| Users.GetByUuidAfterDump | src/data/new_user.rs:55-139 | a newly built and stored user is found by its id exactly as built |
| Users.GetByEmail | src/data/new_user.rs:141-173 | a result is a readable row with that email; no such row, or any lookup error, gives None rather than an error |
| Database.SplitName | src/utils/database.rs:15-17 | the first name is the first word or ""; the last name is the remaining words joined by single spaces, or "" with fewer than two words; the first name has no whitespace |
| Database.SplitNameRoundTrip | src/utils/database.rs:15-17 | a first word and a multi-word last name joined by one space split back into themselves |
| Database.SplitNameIgnoresPadding | src/utils/database.rs:15-17 | any whitespace before and after the name does not change the split |
| Database.SplitNameCollapsesRun | src/utils/database.rs:15-17 | any non-empty run of whitespace anywhere in the name splits as a single space does |
| Database.CheckAccount | src/utils/database.rs:37-58 | the check is true exactly when some row has exactly that email and that stored password |
| Accounts.Register | src/utils/routes/accounts.rs:134-163 | a malformed body gives 400 and stores nothing; otherwise exactly one account is added, the reply carries its id and echoes the unvalidated account type, and the account is found again by that id |
| Accounts.RegisterAllowsDuplicateEmail | src/utils/routes/accounts.rs:134-163 | registering the same email twice leaves two accounts with that email |
| Accounts.Login | src/utils/routes/accounts.rs:176-229 | every reply is HTTP 200; a malformed body gives the format error; an unknown email, a wrong password and a verification error all give the same credentials error; success names an account with that email whose password verifies, and returns its id and type |
| Accounts.GetUser | src/utils/routes/accounts.rs:81-130 | 401 without a header and 404 when the lookup fails; on success the stored profile is returned, while `forms` and `tasks` are always the all-false, default-task scaffold |
| Accounts.UpdateEmployerAgreements | src/utils/routes/accounts.rs:237-314 | 401 and 403 follow the role gate; an unreadable profile gives 500; a `forms.employer` that is neither object nor null aborts the request; every other granted request gives 200; only 200 changes the store, and then only the caller's profile, to the profile with the four flags written (a profile without `forms.employer` is written back unchanged) |
| Accounts.AgreementsVisibleInProfile | src/utils/routes/accounts.rs:292-303 | after the update, `get_user` returns the previous profile with exactly the employer forms replaced |
| Accounts.GetUserScaffoldIgnoresAgreements | src/utils/routes/accounts.rs:99-112 | after all four agreements are recorded, the profile shows them but the `forms` field still reports all false |
| Listing.Select | src/utils/routes/posts.rs:299-307 | the rows are exactly the posts the WHERE clause admits, each once |
| DateOrder.InsertByDate | src/utils/routes/posts.rs:141-142 | inserting into a newest-first sequence keeps it newest-first and adds exactly that row |
| DateOrder.SortByDateDesc | src/utils/routes/posts.rs:141-142 | the result is a permutation of the rows, ordered by date descending |
| Posts.ContentOfWithContent | src/utils/routes/posts.rs:476-489 | content written into a post reads back unchanged |
| Posts.WithContent | src/utils/routes/posts.rs:476-489 | overwriting a post's content keeps its company name, employer and status |
| Posts.NewPost | src/utils/routes/posts.rs:100-118 | the inserted row carries the request's content and company name, the caller's token as employer, and status Pending |
| Posts.CreatePost | src/utils/routes/posts.rs:24-128 | gates in order: missing header or unknown token gives 401, non-employer 403, unreadable profile 500, incomplete employer forms 400, each changing nothing; success adds exactly one Pending post owned by the caller and leaves every other row unchanged |
| Posts.CreatePostKeepsConsistent | src/utils/routes/posts.rs:100-118 | creating a post keeps every application pointing at an existing post |
| Posts.SelectionMembers | src/utils/routes/posts.rs:151-167 | rows holding the selection name exactly the admitted posts, and no post twice |
| Posts.RenderableSelection | src/utils/routes/posts.rs:151-181 | the rows render exactly when no admitted post has NULL questions |
| Posts.Query | src/utils/routes/posts.rs:151-187 | a listing gives 500 and no rows exactly when some selected post has NULL questions; otherwise it gives 200 with the selection |
| Posts.GetPosts | src/utils/routes/posts.rs:131-188 | with no authentication, it returns exactly the Accepted posts, each once, newest date first, or 500 when one of them has NULL questions |
| Posts.GetPendingPosts | src/utils/routes/posts.rs:191-279 | an unknown token gives 401 and a non-administrator 403; an administrator gets 500 exactly when a Pending post has NULL questions and 200 otherwise, with exactly the Pending posts, each once, newest date first; no other outcome occurs |
| Posts.GetMyPosts | src/utils/routes/posts.rs:283-345 | only a missing header gives 401, because the token is not looked up; with a header the reply is 500 exactly when one of the token's posts has NULL questions and 200 otherwise, with every post whose employer is the token, of any status, each once; no other outcome occurs |
| Posts.OwnerGate | src/utils/routes/posts.rs:375-396 | access is granted exactly when the header is present, the post exists and its employer equals the token; a missing post gives the handler's own outcome; another owner gives 403 |
| Posts.DropApplicationsOf | src/utils/routes/posts.rs:399 | the first statement of the cascade removes exactly the applications of that post |
| Posts.DropPost | src/utils/routes/posts.rs:411 | the second statement removes exactly that post |
| Posts.DeletePost | src/utils/routes/posts.rs:348-427 | a missing header gives 401; a missing post gives 500; another owner gives 403; each changes nothing; the owner of an existing post gets 200, which removes the post and exactly its applications and keeps everything else |
| Posts.CascadeMidpointConsistent | src/utils/routes/posts.rs:398-411 | the state between the two delete statements still has the post, has none of its applications, and keeps every application pointing at an existing post |
| Posts.DeletePostKeepsConsistent | src/utils/routes/posts.rs:398-411 | deleting a post leaves no application pointing at a missing post |
| Posts.UpdatePost | src/utils/routes/posts.rs:456-502 | corrected (see ## Findings): a missing header gives 401; a missing post gives 404; another owner gives 403; each changes nothing; the owner of an existing post gets 200, which replaces exactly that post's content and keeps its company name, employer and status |
| Posts.UpdateWithOwnContent | src/utils/routes/posts.rs:476-502 | corrected (see ## Findings): saving a post's own content back leaves the store unchanged |
| Posts.UpdatePostIdempotent | src/utils/routes/posts.rs:476-502 | repeating an update gives the same reply as doing it once |
| Posts.UpdatePostKeepsConsistent | src/utils/routes/posts.rs:476-502 | updating a post keeps every application pointing at an existing post |
| Posts.EncodedAsWritten | src/utils/routes/posts.rs:490-502 | tags, tips and skills become their JSON string literals, questions becomes its literal or the text "null"; the other content fields pass through |
| Posts.UpdatePostAsWrittenKeepsConsistent | src/utils/routes/posts.rs:476-502 | the update as written also keeps every application pointing at an existing post |
| Posts.UpdatePostAsWritten | src/utils/routes/posts.rs:476-502 | the update as written answers with the same outcome as the corrected update on every request; a refused request changes nothing; on success only that post's content columns change, to the encoded content (quoted tags, tips and skills, a non-NULL questions column), and its company name, employer and status are kept |
| Posts.AsWrittenUpdateDrifts | src/utils/routes/posts.rs:493 | saving a post's own content back through the update as written changes its tags, and saving again changes them again |
| Posts.AsWrittenQuotesTags | src/utils/routes/posts.rs:493 | the tags "rust" are stored as the seven characters "\"rust\"" |
| Applications.CreateApplication | src/utils/routes/applications.rs:30-85 | a missing header gives 401; a missing post gives 404 and inserts nothing; otherwise one pending application is added, with the caller as applicant, the post's employer copied in, and creation time equal to update time |
| Applications.CreateApplicationKeepsConsistent | src/utils/routes/applications.rs:48-74 | applying keeps every application pointing at an existing post |
| Applications.ApplyingTwiceGivesTwoRows | src/utils/routes/applications.rs:48-85 | applying twice to the same post succeeds twice and leaves two rows for the same applicant and post |
| Applications.UpdateApplicationStatus | src/utils/routes/applications.rs:233-298 | gates in order: header 401, missing application 404, not its employer 403, invalid status 400, each changing nothing; the owning employer asking for "accepted" or "rejected" gets 200, which sets that status and the update time and changes nothing else |
| Applications.UpdateStatusKeepsConsistent | src/utils/routes/applications.rs:285-288 | a status change keeps every application pointing at an existing post |
| Applications.AcceptedCanBeRejected | src/utils/routes/applications.rs:268-288 | an accepted application can be rejected later by the same employer, and its creation time is kept |
| Applications.Collect | src/utils/routes/applications.rs:106-110 | the rows are exactly the applications that match the filter and survive the inner joins, each once |
| Applications.JoinedMembers | src/utils/routes/applications.rs:185-190 | rows holding the joined selection name exactly the matching applications, with their joined post and applicant; no application is listed twice |
| Applications.GetSubmittedApplications | src/utils/routes/applications.rs:89-144 | only a missing header gives 401; it returns exactly the caller's applications whose post still exists, each with that post; no application is listed twice |
| Applications.GetReceivedApplications | src/utils/routes/applications.rs:148-229 | an unknown token gives 401 and a non-employer 403; otherwise it returns exactly the applications addressed to the caller whose post and applicant account both exist; no application is listed twice |
| Applications.SubmittedCompleteWhenConsistent | src/utils/routes/applications.rs:106-110 | when every application's post exists, the join drops nothing from the caller's submitted list |
| Applications.DeletedPostLeavesNoSubmittedRow | src/utils/routes/posts.rs:399-411 | after a post is deleted, no submitted-applications row refers to it |
| Uploads.LastIndexOf | src/utils/routes/misc.rs:38-42 | the index found holds the character and no later index does; there is none exactly when the character is absent |
| Uploads.AfterLast | src/utils/routes/misc.rs:38-42 | the result is the text after some occurrence of the separator and contains no separator, or the whole text when there is no separator |
| Uploads.UploadExtension | src/utils/routes/misc.rs:30-42 | the extension is the text after the last '.' of the filename, or the whole filename without a '.', with "unknown_file" when the filename is missing; it never contains '.' |
| Uploads.StoredName | src/utils/routes/misc.rs:45 | the stored name is the uuid, a '.', then the extension |
| Uploads.Upload | src/utils/routes/misc.rs:12-103 | the URL is the fixed prefix followed by the stored name of the last field, or by nothing when there were no fields |
| Uploads.ServedExtension | src/utils/routes/misc.rs:130 | when the name is not ".." and its last '.' is not the first character, the served extension is the text after that '.'; there is none without a '.', when the last '.' is the first character, or for ".." |
| Uploads.ContentType | src/utils/routes/misc.rs:130-139 | each listed extension maps to its type by exact, case-sensitive match; everything else, including no extension, is application/octet-stream |
| Uploads.ServedExtensionOfStoredName | src/utils/routes/misc.rs:45 | for a uuid without '.', the file server reads back exactly the extension the upload kept |
| Uploads.ServedTypeOfUpload | src/utils/routes/misc.rs:130-139 | the content type of a stored upload depends only on its original extension |
| Scenarios.FreshEmployerCannotPost | src/utils/routes/posts.rs:84-98 | a newly registered employer's first `create_post` gives 400 and changes nothing |
| Scenarios.AgreementsThenPost | src/utils/routes/accounts.rs:292-303 | after that employer records all four agreements, `create_post` succeeds |
| Scenarios.DeleteUndoesCreate | src/utils/routes/posts.rs:398-411 | in a consistent store, the owner deleting a post they just created restores the store exactly |
| Scenarios.RegisterKeepsConsistent | src/utils/routes/accounts.rs:134-163 | registering touches neither posts nor applications, so every application still points at an existing post |
| Scenarios.AgreementsKeepConsistent | src/utils/routes/accounts.rs:237-314 | the agreements update keeps every application pointing at an existing post |
| Scenarios.DeleteRemovesApplications | src/utils/routes/posts.rs:399-411 | an application made to a post is gone after its owner deletes the post |

## Left out

- I/O failures. Every "database error" branch that answers 500 when the connection or a
  statement fails is left out, because the store is a value and cannot fail. This
  includes `register_account` answering 200 with `success: false` when the insert fails,
  and `login_account`'s "Database error" reply.
- Request-body deserialisation. Handlers that take a JSON body through actix's
  `web::Json` (posts.rs:23, posts.rs:430, accounts.rs:235, applications.rs:30,
  applications.rs:236) answer 400 for a malformed body before any header gate runs. The
  model's requests are already typed, so that 400 and its place ahead of the 401 gate
  are not modelled.
- Password hashing and verification (Argon2 with a secret from the environment) are
  opaque function parameters. So is the panic when the secret is unset.
- JSON rendering of replies, and the text of error messages. Outcomes are tags, and
  listing rows are records rather than serialized JSON. The `answers` of an application
  is kept as the text the handler stores. Its parse-or-`{}` rendering in the listings is
  not modelled.
- Profile.Decode: only the object form of a stored profile is decoded. serde_json also
  accepts a struct written as a JSON array and rejects a repeated field name, which the
  parsed tree cannot hold. No handler writes either form, so a profile in those forms is
  not modelled.
- The stored profile is a parsed JSON tree. Text that is not JSON is `None`. The
  write-back of `profile.to_string()` is assumed to parse to the same tree.
- NULL in columns other than `questions` and `profile`, such as a NULL `account_type`,
  is not modelled, because no handler in this core writes one.
- Path ids are integers. The source binds the raw path text, so a non-numeric id finds
  no row (500 for delete, 404 for update).
- `update_post`'s "missing post id" 400 is left out, because the route always supplies
  the id.
- Concurrency and atomicity. The delete cascade is modelled as two sequential steps. The
  state between them is described by `Posts.CascadeMidpointConsistent`, and no atomicity
  is claimed.
- `Users.GetByEmail` leaves open which account is returned when several share an email.
  SQLite returns the first row in storage order, which the model does not track.
- File contents and file-system errors in `upload` and `serve_file`. Only names, URLs
  and content types are modelled. `serve_file`'s filename is assumed to be one path
  segment, as the route matches it.
- The employer count and user list handlers of accounts.rs, messages.rs,
  src/data/posts.rs, src/data/database.rs, main.rs, structures.rs and enums.rs are not
  part of this model. They are thin wrappers, stale code or declarations outside the
  authorization core.
- Post moderation (Pending to Accepted or Rejected) has no handler in this code, so none
  is modelled. Only the listings read the status.

## Findings

| source | as written | input that shows it | evidently intended | confidence | as-written member | corrected member |
|---|---|---|---|---|---|---|
| src/utils/routes/posts.rs:493-501 | `update_post` stores `serde_json::to_string` of the `tags`, `tips`, `skills` and `questions` strings, which adds quotes and escapes, while `create_post` stores them raw | the owner saves a post with tags `rust` unchanged; the stored tags become `"rust"` with quotes, and every further save adds another layer (Posts.AsWrittenQuotesTags, Posts.AsWrittenUpdateDrifts) | store the strings as given, so that saving a post's own content is a no-op (Posts.UpdateWithOwnContent, Posts.UpdatePostIdempotent) | medium, not executed | Posts.UpdatePostAsWritten | Posts.UpdatePost |

=== FILE: accounts.dfy ===
/** The account handlers of src/utils/routes/accounts.rs: `register_account`,
    `login_account`, `get_user` and `update_employer_agreements`. */
module Accounts {

  import opened Options
  import opened JsonValue
  import opened Profile
  import opened Store
  import opened Auth
  import opened Users

  // ---------------------------------------------------------------------------
  // register_account
  // ---------------------------------------------------------------------------

  /** The register body; None is a body that does not deserialize. */
  datatype RegisterRequest = RegisterRequest(
    email: string, password: string, firstName: string, lastName: string, accountType: string)

  /** The reply: outcome, store afterwards, and the `uuid` / `account_type`
      of a successful reply. */
  datatype RegisterReply = RegisterReply(
    outcome: Outcome, store: Store, uuid: Option<string>, accountType: Option<string>)

  /** `register_account`. A malformed body is a 400 and stores nothing.
      Otherwise the new account is stored under the fresh id, the reply carries
      that id, and `account_type` is echoed without validation. No check for an
      existing email is made. */
  function Register(body: Option<RegisterRequest>, hash: string -> string, freshId: string, s: Store)
    : (r: RegisterReply)
    requires freshId !in s.accounts
    ensures body.None? ==> r.outcome == BadRequest && r.store == s && r.uuid.None?
    ensures body.Some? ==>
      && r.outcome == Ok
      && r.uuid == Some(freshId)
      && r.accountType == Some(body.value.accountType)
      && r.store.posts == s.posts && r.store.applications == s.applications
      && r.store.accounts.Keys == s.accounts.Keys + {freshId}
      && (forall k :: k in s.accounts ==> r.store.accounts[k] == s.accounts[k])
    ensures body.Some? ==>
      GetByUuid(r.store.accounts, freshId)
        == Found(UserRecord(body.value.email, hash(body.value.password), freshId, DefaultProfile(),
                            body.value.firstName, body.value.lastName, body.value.accountType))
  {
    match body
    case None => RegisterReply(BadRequest, s, None, None)
    case Some(req) =>
      var u := CreateUser(req.email, req.password, req.firstName, req.lastName, req.accountType, hash, freshId);
      RegisterReply(Ok, s.(accounts := Dump(s.accounts, u)), Some(u.uniqueId), Some(req.accountType))
  }

  /** Registering the same email twice gives two accounts with that email. */
  lemma RegisterAllowsDuplicateEmail(req: RegisterRequest, hash: string -> string,
                                     id1: string, id2: string, s: Store)
    requires id1 !in s.accounts && id2 !in s.accounts && id1 != id2
    ensures var s1 := Register(Some(req), hash, id1, s).store;
            var s2 := Register(Some(req), hash, id2, s1).store;
            && id1 in s2.accounts && id2 in s2.accounts
            && s2.accounts[id1].email == req.email == s2.accounts[id2].email
  {
  }

  // ---------------------------------------------------------------------------
  // login_account
  // ---------------------------------------------------------------------------

  datatype LoginRequest = LoginRequest(email: string, password: string)

  /** `verify_password`: a verdict, or an error (unset secret, bad hash). */
  datatype VerifyResult = Verified(matches: bool) | VerifyError

  datatype LoginReply = LoggedIn(uuid: string, accountType: string) | LoginFailed(error: string)

  const InvalidFormat: string := "Invalid request format"
  const InvalidCredentials: string := "Invalid email or password"

  /** `login_account`. Always HTTP 200; `success` carries the verdict. An
      unknown email, a wrong password, a verification error and an account
      whose profile does not decode all give the same failure. */
  method Login(body: Option<LoginRequest>, s: Store, verify: (string, string) -> VerifyResult)
    returns (outcome: Outcome, reply: LoginReply)
    ensures outcome == Ok
    ensures body.None? ==> reply == LoginFailed(InvalidFormat)
    ensures body.Some? && reply.LoginFailed? ==> reply.error == InvalidCredentials
    ensures reply.LoggedIn? ==>
      && body.Some?
      && reply.uuid in s.accounts
      && s.accounts[reply.uuid].email == body.value.email
      && Readable(s.accounts[reply.uuid])
      && verify(body.value.password, s.accounts[reply.uuid].password) == Verified(true)
      && reply.accountType == s.accounts[reply.uuid].accountType
    ensures body.Some? && (forall k :: k in s.accounts && s.accounts[k].email == body.value.email
                                       ==> verify(body.value.password, s.accounts[k].password) != Verified(true))
            ==> reply == LoginFailed(InvalidCredentials)
    ensures body.Some? && (exists k :: k in s.accounts && s.accounts[k].email == body.value.email)
            && (forall k :: k in s.accounts && s.accounts[k].email == body.value.email
                  ==> Readable(s.accounts[k]) && verify(body.value.password, s.accounts[k].password) == Verified(true))
            ==> reply.LoggedIn?
  {
    outcome := Ok;
    if body.None? {
      return outcome, LoginFailed(InvalidFormat);
    }
    var req := body.value;
    var user := GetByEmail(s.accounts, req.email);
    if user.Some? {
      var verdict := verify(req.password, user.value.password);
      if verdict == Verified(true) {
        return outcome, LoggedIn(user.value.uniqueId, user.value.accountType);
      }
    }
    reply := LoginFailed(InvalidCredentials);
  }

  // ---------------------------------------------------------------------------
  // get_user
  // ---------------------------------------------------------------------------

  /** The body of a successful `get_user`. `forms` and `tasks` are the
      scaffold the handler writes out, not the stored ones. */
  datatype UserView = UserView(
    email: string, uniqueId: string, firstName: string, lastName: string,
    profile: ProfileInfo, forms: Forms, tasks: Tasks)

  datatype UserReply = UserReply(outcome: Outcome, view: Option<UserView>)

  /** `get_user`. 401 without a header, 404 when `get_by_uuid` fails (no such
      account, or its profile does not decode). The `forms`/`tasks` fields are
      always all-false forms and the default task lists. */
  function GetUser(header: Option<string>, s: Store): (r: UserReply)
    ensures r.outcome == Unauthorized <==> header.None?
    ensures r.outcome == NotFound <==> header.Some? && GetByUuid(s.accounts, BearerToken(header).value).Failed?
    ensures r.outcome in {Ok, Unauthorized, NotFound}
    ensures r.view.Some? <==> r.outcome == Ok
    ensures r.view.Some? ==>
      var token := BearerToken(header).value;
      && r.view.value.uniqueId == token
      && token in s.accounts
      && r.view.value.email == s.accounts[token].email
      && r.view.value.firstName == s.accounts[token].firstName
      && r.view.value.lastName == s.accounts[token].lastName
      && s.accounts[token].profile.Some?
      && Decode(s.accounts[token].profile.value) == Some(r.view.value.profile)
    ensures r.view.Some? ==> r.view.value.forms == DefaultProfile().forms
                             && r.view.value.tasks == DefaultProfile().tasks
  {
    match BearerToken(header)
    case None => UserReply(Unauthorized, None)
    case Some(token) =>
      match GetByUuid(s.accounts, token)
      case Failed(_) => UserReply(NotFound, None)
      case Found(u) =>
        UserReply(Ok, Some(UserView(u.email, u.uniqueId, u.firstName, u.lastName, u.profile,
                                    DefaultProfile().forms, DefaultProfile().tasks)))
  }

  // ---------------------------------------------------------------------------
  // update_employer_agreements
  // ---------------------------------------------------------------------------

  /** `update_employer_agreements`. 401 for a missing header or an unknown
      token, 403 for an account that is not an employer, 500 for a profile that
      is not JSON, and a panic when `forms.employer` is neither an object nor
      null; the store is unchanged in all of these. Otherwise only the
      caller's profile changes: the four flags are written when
      `forms.employer` exists, and the profile is written back as it was when
      it does not. */
  function UpdateEmployerAgreements(header: Option<string>, a: EmployerForms, s: Store): (r: Reply)
    ensures r.outcome == Unauthorized <==> RequireRole(header, s.accounts, Employer) == Denied(Unauthorized)
    ensures r.outcome == Forbidden <==> RequireRole(header, s.accounts, Employer) == Denied(Forbidden)
    ensures r.outcome != Ok ==> r.store == s
    ensures r.outcome == Ok ==>
      var token := BearerToken(header).value;
      && token in s.accounts
      && s.accounts[token].accountType == Employer
      && s.accounts[token].profile.Some?
      && r.store.posts == s.posts && r.store.applications == s.applications
      && r.store.accounts.Keys == s.accounts.Keys
      && (forall k :: k in s.accounts && k != token ==> r.store.accounts[k] == s.accounts[k])
      && r.store.accounts[token] == s.accounts[token].(profile := r.store.accounts[token].profile)
      && r.store.accounts[token].profile == ApplyAgreements(s.accounts[token].profile.value, a)
      && r.store.accounts[token].profile.Some?
    ensures r.outcome == Ok && EmployerSection(s.accounts[BearerToken(header).value].profile.value).None? ==>
      r.store == s
    ensures r.outcome == Ok && EmployerSection(s.accounts[BearerToken(header).value].profile.value).Some? ==>
      var p := r.store.accounts[BearerToken(header).value].profile.value;
      EmployerSection(p).Some? && DecodeEmployerForms(EmployerSection(p).value) == Some(a)
    ensures r.outcome == ServerError <==>
      RequireRole(header, s.accounts, Employer).Granted? && s.accounts[BearerToken(header).value].profile.None?
    ensures r.outcome == Aborted <==>
      RequireRole(header, s.accounts, Employer).Granted?
      && s.accounts[BearerToken(header).value].profile.Some?
      && ApplyAgreements(s.accounts[BearerToken(header).value].profile.value, a).None?
    ensures r.outcome == Ok <==>
      RequireRole(header, s.accounts, Employer).Granted?
      && s.accounts[BearerToken(header).value].profile.Some?
      && ApplyAgreements(s.accounts[BearerToken(header).value].profile.value, a).Some?
    ensures r.outcome in {Ok, Unauthorized, Forbidden, ServerError, Aborted}
  {
    match RequireRole(header, s.accounts, Employer)
    case Denied(o) => Reply(o, s)
    case Granted(token) =>
      var account := s.accounts[token];
      match account.profile
      case None => Reply(ServerError, s)
      case Some(profile) =>
        match ApplyAgreements(profile, a)
        case None => Reply(Aborted, s)
        case Some(profile') =>
          Reply(Ok, s.(accounts := s.accounts[token := account.(profile := Some(profile'))]))
  }

  /** For a profile that decodes, the agreements update changes exactly the
      employer forms of the typed profile, which `get_user` then returns. */
  lemma AgreementsVisibleInProfile(header: Option<string>, a: EmployerForms, s: Store)
    requires RequireRole(header, s.accounts, Employer).Granted?
    requires Readable(s.accounts[BearerToken(header).value])
    ensures var r := UpdateEmployerAgreements(header, a, s);
            var token := BearerToken(header).value;
            var before := Decode(s.accounts[token].profile.value).value;
            && r.outcome == Ok
            && GetUser(header, r.store).view.Some?
            && GetUser(header, r.store).view.value.profile
               == before.(forms := before.forms.(employer := a))
  {
    var token := BearerToken(header).value;
    DecodeAfterAgreements(s.accounts[token].profile.value, a);
  }

  /** `get_user` reports the employer forms as all false even after all four
      agreements were recorded. */
  lemma GetUserScaffoldIgnoresAgreements(header: Option<string>, s: Store)
    requires RequireRole(header, s.accounts, Employer).Granted?
    requires Readable(s.accounts[BearerToken(header).value])
    ensures var s' := UpdateEmployerAgreements(header, AllEmployerForms, s).store;
            && GetUser(header, s').view.Some?
            && GetUser(header, s').view.value.profile.forms.employer == AllEmployerForms
            && GetUser(header, s').view.value.forms.employer == NoEmployerForms
  {
    AgreementsVisibleInProfile(header, AllEmployerForms, s);
  }
}

=== FILE: applications.dfy ===
/** The application handlers of src/utils/routes/applications.rs:
    `create_application`, `get_submitted_applications`,
    `get_received_applications` and `update_application_status`. */
module Applications {

  import opened Options
  import opened Store
  import opened Auth
  import opened Listing
  import opened Posts

  // ---------------------------------------------------------------------------
  // create_application
  // ---------------------------------------------------------------------------

  /** The body of `create_application`; `answers` is the JSON text the handler
      stores. */
  datatype ApplyRequest = ApplyRequest(postId: int, answers: string)

  /** `create_application`. Only the header and the post's existence are
      checked: any caller, of any account type or none, may apply to a post of
      any status, as often as they like. `now` is the request's timestamp and
      `newId` the id the database assigns. */
  function CreateApplication(header: Option<string>, req: ApplyRequest, now: string, newId: int, s: Store): (r: Reply)
    requires newId !in s.applications
    ensures r.outcome == Unauthorized <==> header.None?
    ensures r.outcome == NotFound <==> header.Some? && req.postId !in s.posts
    ensures r.outcome == Ok <==> header.Some? && req.postId in s.posts
    ensures r.outcome != Ok ==> r.store == s
    ensures r.outcome == Ok ==>
      && r.store.accounts == s.accounts && r.store.posts == s.posts
      && r.store.applications.Keys == s.applications.Keys + {newId}
      && (forall k :: k in s.applications ==> r.store.applications[k] == s.applications[k])
      && var a := r.store.applications[newId];
         && a.postId == req.postId
         && Some(a.applicantId) == BearerToken(header)
         && a.employerId == s.posts[req.postId].employerId
         && a.status == AppPending
         && a.answers == req.answers
         && a.createdAt == now && a.updatedAt == now
  {
    match BearerToken(header)
    case None => Reply(Unauthorized, s)
    case Some(token) =>
      if req.postId !in s.posts then Reply(NotFound, s)
      else
        var a := Application(req.postId, token, s.posts[req.postId].employerId, AppPending, req.answers, now, now);
        Reply(Ok, s.(applications := s.applications[newId := a]))
  }

  /** Applying keeps every application's post in place. */
  lemma CreateApplicationKeepsConsistent(header: Option<string>, req: ApplyRequest, now: string, newId: int, s: Store)
    requires newId !in s.applications && Consistent(s)
    ensures Consistent(CreateApplication(header, req, now, newId, s).store)
  {
  }

  /** Nothing stops a second application to the same post: two requests leave
      two rows for the same applicant and post. */
  lemma {:induction false} ApplyingTwiceGivesTwoRows(
    header: Option<string>, req: ApplyRequest, now1: string, now2: string, id1: int, id2: int, s: Store)
    requires header.Some? && req.postId in s.posts
    requires id1 !in s.applications && id2 !in s.applications && id1 != id2
    ensures var first := CreateApplication(header, req, now1, id1, s);
            && first.outcome == Ok
            && id2 !in first.store.applications
            && var second := CreateApplication(header, req, now2, id2, first.store);
               && second.outcome == Ok
               && id1 in second.store.applications && id2 in second.store.applications
               && second.store.applications[id1].postId == second.store.applications[id2].postId
               && second.store.applications[id1].applicantId == second.store.applications[id2].applicantId
  {
    var first := CreateApplication(header, req, now1, id1, s);
    assert first.store.applications.Keys == s.applications.Keys + {id1};
    var second := CreateApplication(header, req, now2, id2, first.store);
    assert second.store.applications[id1] == first.store.applications[id1];
  }

  // ---------------------------------------------------------------------------
  // update_application_status
  // ---------------------------------------------------------------------------

  /** `update_application_status`. The checks run in order: header (401),
      the application exists (404), the caller is its `employer_id` (403),
      the requested status is "accepted" or "rejected" (400). The current
      status is not consulted, so a decision can be overwritten. */
  function UpdateApplicationStatus(header: Option<string>, appId: int, status: string, now: string, s: Store): (r: Reply)
    ensures r.outcome == Unauthorized <==> header.None?
    ensures r.outcome == NotFound <==> header.Some? && appId !in s.applications
    ensures r.outcome == Forbidden <==>
      header.Some? && appId in s.applications
      && Some(s.applications[appId].employerId) != BearerToken(header)
    ensures r.outcome == BadRequest <==>
      header.Some? && appId in s.applications
      && Some(s.applications[appId].employerId) == BearerToken(header)
      && status != "accepted" && status != "rejected"
    ensures r.outcome == Ok <==>
      header.Some? && appId in s.applications
      && Some(s.applications[appId].employerId) == BearerToken(header)
      && (status == "accepted" || status == "rejected")
    ensures r.outcome in {Ok, Unauthorized, NotFound, Forbidden, BadRequest}
    ensures r.outcome != Ok ==> r.store == s
    ensures r.outcome == Ok ==>
      && r.store.accounts == s.accounts && r.store.posts == s.posts
      && r.store.applications.Keys == s.applications.Keys
      && (forall k :: k in s.applications && k != appId ==> r.store.applications[k] == s.applications[k])
      && Some(r.store.applications[appId].status) == RequestedStatus(status)
      && r.store.applications[appId].updatedAt == now
      && r.store.applications[appId]
         == s.applications[appId].(status := r.store.applications[appId].status, updatedAt := now)
  {
    match BearerToken(header)
    case None => Reply(Unauthorized, s)
    case Some(token) =>
      if appId !in s.applications then Reply(NotFound, s)
      else if s.applications[appId].employerId != token then Reply(Forbidden, s)
      else
        match RequestedStatus(status)
        case None => Reply(BadRequest, s)
        case Some(st) =>
          Reply(Ok, s.(applications := s.applications[appId := s.applications[appId].(status := st, updatedAt := now)]))
  }

  /** Changing a status keeps every application's post in place. */
  lemma UpdateStatusKeepsConsistent(header: Option<string>, appId: int, status: string, now: string, s: Store)
    requires Consistent(s)
    ensures Consistent(UpdateApplicationStatus(header, appId, status, now, s).store)
  {
  }

  /** An accepted application can be rejected afterwards by the same
      employer: the second request succeeds and the later decision wins. */
  lemma {:induction false} AcceptedCanBeRejected(header: Option<string>, appId: int, t1: string, t2: string, s: Store)
    requires appId in s.applications && Some(s.applications[appId].employerId) == BearerToken(header)
    ensures var accepted := UpdateApplicationStatus(header, appId, "accepted", t1, s);
            && accepted.outcome == Ok
            && accepted.store.applications[appId].status == AppAccepted
            && var rejected := UpdateApplicationStatus(header, appId, "rejected", t2, accepted.store);
               && rejected.outcome == Ok
               && rejected.store.applications[appId].status == AppRejected
               && rejected.store.applications[appId].createdAt == s.applications[appId].createdAt
  {
    var accepted := UpdateApplicationStatus(header, appId, "accepted", t1, s);
    assert accepted.store.applications[appId].employerId == s.applications[appId].employerId;
  }

  // ---------------------------------------------------------------------------
  // The two application listings
  // ---------------------------------------------------------------------------

  /** Which applications a listing asks for: those the caller submitted
      (`applicant_id = ?`) or those addressed to the caller
      (`employer_id = ?`). */
  datatype AppFilter = SubmittedBy(applicant: string) | ReceivedBy(employer: string)

  /** A row of a listing: the application, the post it joins, and for the
      received listing the applicant's account it joins. */
  datatype AppRow = AppRow(id: int, app: Application, post: Post, applicant: Option<Account>)

  /** The WHERE clause and the inner joins: the post must exist, and for the
      received listing so must the applicant's account. */
  predicate Joins(s: Store, f: AppFilter, a: Application)
  {
    && a.postId in s.posts
    && match f
       case SubmittedBy(t) => a.applicantId == t
       case ReceivedBy(t) => a.employerId == t && a.applicantId in s.accounts
  }

  function RowOf(s: Store, f: AppFilter, id: int, a: Application): AppRow
    requires Joins(s, f, a)
  {
    AppRow(id, a, s.posts[a.postId],
           if f.ReceivedBy? then Some(s.accounts[a.applicantId]) else None)
  }

  ghost function JoinedAmong(s: Store, f: AppFilter, ids: set<int>): set<AppRow>
  {
    set id | id in ids && id in s.applications && Joins(s, f, s.applications[id])
           :: RowOf(s, f, id, s.applications[id])
  }

  /** The rows a listing must return, each application once. */
  ghost function Joined(s: Store, f: AppFilter): set<AppRow>
  {
    JoinedAmong(s, f, s.applications.Keys)
  }

  lemma JoinedAmongStep(s: Store, f: AppFilter, ids: set<int>, id: int)
    requires id in s.applications && id !in ids
    ensures Joins(s, f, s.applications[id]) ==>
      multiset(JoinedAmong(s, f, ids + {id}))
        == multiset(JoinedAmong(s, f, ids)) + multiset{RowOf(s, f, id, s.applications[id])}
    ensures !Joins(s, f, s.applications[id]) ==>
      JoinedAmong(s, f, ids + {id}) == JoinedAmong(s, f, ids)
  {
    if Joins(s, f, s.applications[id]) {
      var row := RowOf(s, f, id, s.applications[id]);
      assert row !in JoinedAmong(s, f, ids);
      assert JoinedAmong(s, f, ids + {id}) == JoinedAmong(s, f, ids) + {row};
    }
  }

  /** The joined selection, unordered. */
  method Collect(s: Store, f: AppFilter) returns (rows: seq<AppRow>)
    ensures multiset(rows) == multiset(Joined(s, f))
  {
    rows := [];
    var todo := s.applications.Keys;
    ghost var done: set<int> := {};
    while todo != {}
      invariant todo + done == s.applications.Keys && todo !! done
      invariant multiset(rows) == multiset(JoinedAmong(s, f, done))
      decreases todo
    {
      NonEmptyHasMember(todo);
      var id :| id in todo;
      JoinedAmongStep(s, f, done, id);
      if Joins(s, f, s.applications[id]) {
        rows := rows + [RowOf(s, f, id, s.applications[id])];
      }
      todo := todo - {id};
      done := done + {id};
    }
    assert done == s.applications.Keys;
  }

  /** Rows holding the joined selection name exactly the joined
      applications. */
  lemma JoinedMembers(rows: seq<AppRow>, s: Store, f: AppFilter)
    requires multiset(rows) == multiset(Joined(s, f))
    ensures forall row :: row in rows <==>
              && row.id in s.applications && row.app == s.applications[row.id]
              && Joins(s, f, row.app) && row == RowOf(s, f, row.id, row.app)
    ensures forall i, j :: 0 <= i < j < |rows| ==> rows[i].id != rows[j].id
  {
    forall row
      ensures row in rows <==>
              && row.id in s.applications && row.app == s.applications[row.id]
              && Joins(s, f, row.app) && row == RowOf(s, f, row.id, row.app)
    {
      assert row in rows <==> row in multiset(rows);
    }
    forall i, j | 0 <= i < j < |rows|
      ensures rows[i].id != rows[j].id
    {
      if rows[i].id == rows[j].id {
        assert rows[i] in rows && rows[j] in rows;
        RepeatCountsTwice(rows, i, j);
        assert false;
      }
    }
  }

  datatype AppsReply = AppsReply(outcome: Outcome, rows: seq<AppRow>)

  /** `get_submitted_applications`: the caller's own applications whose post
      still exists. The token is not looked up. */
  method GetSubmittedApplications(header: Option<string>, s: Store) returns (r: AppsReply)
    ensures r.outcome == Ok || r.outcome == Unauthorized
    ensures r.outcome == Unauthorized <==> header.None?
    ensures r.outcome != Ok ==> r.rows == []
    ensures r.outcome == Ok ==>
      forall row :: row in r.rows <==>
        && row.id in s.applications && row.app == s.applications[row.id]
        && Some(row.app.applicantId) == BearerToken(header)
        && row.app.postId in s.posts && row.post == s.posts[row.app.postId]
        && row.applicant.None?
    ensures r.outcome == Ok ==> forall i, j :: 0 <= i < j < |r.rows| ==> r.rows[i].id != r.rows[j].id
  {
    match BearerToken(header)
    case None =>
      r := AppsReply(Unauthorized, []);
    case Some(token) =>
      var rows := Collect(s, SubmittedBy(token));
      JoinedMembers(rows, s, SubmittedBy(token));
      r := AppsReply(Ok, rows);
  }

  /** `get_received_applications`: employers only; the applications
      addressed to the caller whose post and applicant account both still
      exist. */
  method GetReceivedApplications(header: Option<string>, s: Store) returns (r: AppsReply)
    ensures r.outcome == Unauthorized <==> header.None? || BearerToken(header).value !in s.accounts
    ensures r.outcome == Forbidden <==>
      header.Some? && BearerToken(header).value in s.accounts
      && s.accounts[BearerToken(header).value].accountType != Employer
    ensures r.outcome == Ok <==> RequireRole(header, s.accounts, Employer).Granted?
    ensures r.outcome != Ok ==> r.rows == []
    ensures r.outcome == Ok ==>
      forall row :: row in r.rows <==>
        && row.id in s.applications && row.app == s.applications[row.id]
        && Some(row.app.employerId) == BearerToken(header)
        && row.app.postId in s.posts && row.post == s.posts[row.app.postId]
        && row.app.applicantId in s.accounts
        && row.applicant == Some(s.accounts[row.app.applicantId])
    ensures r.outcome == Ok ==> forall i, j :: 0 <= i < j < |r.rows| ==> r.rows[i].id != r.rows[j].id
  {
    match RequireRole(header, s.accounts, Employer)
    case Denied(o) =>
      r := AppsReply(o, []);
    case Granted(token) =>
      var rows := Collect(s, ReceivedBy(token));
      JoinedMembers(rows, s, ReceivedBy(token));
      r := AppsReply(Ok, rows);
  }

  /** In a consistent store the post join drops nothing: every application
      the caller submitted is listed. */
  lemma {:induction false} SubmittedCompleteWhenConsistent(rows: seq<AppRow>, token: string, s: Store)
    requires Consistent(s)
    requires multiset(rows) == multiset(Joined(s, SubmittedBy(token)))
    ensures forall k :: k in s.applications && s.applications[k].applicantId == token ==>
              exists row :: row in rows && row.id == k
  {
    JoinedMembers(rows, s, SubmittedBy(token));
    forall k | k in s.applications && s.applications[k].applicantId == token
      ensures exists row :: row in rows && row.id == k
    {
      var row := RowOf(s, SubmittedBy(token), k, s.applications[k]);
      assert row in rows;
    }
  }

  /** After a post is deleted its applications are gone from the applicant's
      listing, whichever of the two cascade statements removed them. */
  lemma {:induction false} DeletedPostLeavesNoSubmittedRow(
    header: Option<string>, id: int, token: string, rows: seq<AppRow>, s: Store)
    requires DeletePost(header, id, s).outcome == Ok
    requires multiset(rows) == multiset(Joined(DeletePost(header, id, s).store, SubmittedBy(token)))
    ensures forall row :: row in rows ==> row.app.postId != id
  {
    var s' := DeletePost(header, id, s).store;
    JoinedMembers(rows, s', SubmittedBy(token));
  }
}

=== FILE: auth.dfy ===
/** Bearer-token extraction and the account-type gate, as every handler in
    src/utils/routes writes them inline: the token is the `Authorization`
    header with every "Bearer " removed, and the caller's role is the
    `account_type` of the account whose `unique_id` is that token. */
module Auth {

  import opened Options
  import opened Text
  import opened Store

  const BearerPrefix: string := "Bearer "

  /** `header.to_str().unwrap_or("")`. */
  function HeaderText(h: string): (r: string)
    ensures IsVisibleAscii(h) ==> r == h
    ensures !IsVisibleAscii(h) ==> r == ""
  {
    if IsVisibleAscii(h) then h else ""
  }

  /** The token a handler works with; None when the header is missing. A
      header that is not visible ASCII yields the empty token, which no
      account has. */
  function BearerToken(header: Option<string>): (t: Option<string>)
    ensures t.Some? <==> header.Some?
    ensures header.Some? && !IsVisibleAscii(header.value) ==> t == Some("")
    ensures t.Some? ==> |t.value| <= |header.value|
    ensures header.Some? && IsVisibleAscii(header.value) && !Occurs(header.value, BearerPrefix) ==>
      t == header
    ensures header.Some? && IsVisibleAscii(header.value)
            && |header.value| >= |BearerPrefix| && header.value[..|BearerPrefix|] == BearerPrefix
            && !Occurs(header.value[|BearerPrefix|..], BearerPrefix) ==>
      t == Some(header.value[|BearerPrefix|..])
  {
    match header
    case None => None
    case Some(h) =>
      PrefixRemoval(h);
      Some(RemoveAll(HeaderText(h), BearerPrefix))
  }

  /** Removal leaves a header without "Bearer " alone, and takes off a
      leading "Bearer " when the rest holds none. */
  lemma PrefixRemoval(h: string)
    ensures !Occurs(h, BearerPrefix) ==> RemoveAll(h, BearerPrefix) == h
    ensures |h| >= |BearerPrefix| && h[..|BearerPrefix|] == BearerPrefix
            && !Occurs(h[|BearerPrefix|..], BearerPrefix) ==>
      RemoveAll(h, BearerPrefix) == h[|BearerPrefix|..]
  {
    if !Occurs(h, BearerPrefix) {
      RemoveAllAbsent(h, BearerPrefix);
    }
    if |h| >= |BearerPrefix| && !Occurs(h[|BearerPrefix|..], BearerPrefix) {
      RemoveAllAbsent(h[|BearerPrefix|..], BearerPrefix);
    }
  }

  /** A token without a space survives extraction, with or without the
      "Bearer " prefix. */
  lemma {:induction false} BearerTokenRoundTrip(t: string)
    requires IsVisibleAscii(t) && ' ' !in t
    ensures BearerToken(Some(BearerPrefix + t)) == Some(t)
    ensures BearerToken(Some(t)) == Some(t)
  {
    AbsentCharMeansNoOccurrence(t, BearerPrefix, ' ');
    RemoveAllAbsent(t, BearerPrefix);
    var h := BearerPrefix + t;
    assert IsVisibleAscii(h) by {
      forall i | 0 <= i < |h|
        ensures (' ' <= h[i] <= '~') || h[i] == '\t'
      {
        if i >= |BearerPrefix| {
          assert h[i] == t[i - |BearerPrefix|];
        }
      }
    }
    assert h[..|BearerPrefix|] == BearerPrefix;
    assert h[|BearerPrefix|..] == t;
  }

  /** Removal is a single left-to-right pass, so the result can spell
      "Bearer " again. */
  lemma TokenMayStillContainPrefix()
    ensures BearerToken(Some("Bear" + BearerPrefix + "er ")) == Some(BearerPrefix)
  {
    var h := "Bear" + BearerPrefix + "er ";
    assert IsVisibleAscii(h) by {
      forall i | 0 <= i < |h|
        ensures ' ' <= h[i] <= '~'
      {
      }
    }
    RemovalRecreatesPrefix();
  }

  lemma RemovalRecreatesPrefix()
    ensures RemoveAll("Bear" + BearerPrefix + "er ", BearerPrefix) == BearerPrefix
  {
    RemoveFromB();
    assert "Bear" + BearerPrefix + "er " == "BearBearer er ";
  }

  // One lemma per character of "Bear": each removes nothing at the front and
  // hands the rest of the string on.

  lemma RemoveFromMatch()
    ensures RemoveAll("Bearer er ", BearerPrefix) == "er "
  {
    RemoveStepMatch("Bearer er ", "er ");
  }

  lemma RemoveFromR()
    ensures RemoveAll("rBearer er ", BearerPrefix) == "rer "
  {
    RemoveFromMatch();
    var s := "rBearer er ";
    assert s[1..] == "Bearer er ";
    RemoveStepMiss(s, 0);
  }

  lemma RemoveFromA()
    ensures RemoveAll("arBearer er ", BearerPrefix) == "arer "
  {
    RemoveFromR();
    var s := "arBearer er ";
    assert s[1..] == "rBearer er ";
    RemoveStepMiss(s, 0);
  }

  lemma RemoveFromE()
    ensures RemoveAll("earBearer er ", BearerPrefix) == "earer "
  {
    RemoveFromA();
    var s := "earBearer er ";
    assert s[1..] == "arBearer er ";
    RemoveStepMiss(s, 0);
  }

  lemma RemoveFromB()
    ensures RemoveAll("BearBearer er ", BearerPrefix) == "Bearer "
  {
    RemoveFromE();
    var s := "BearBearer er ";
    assert s[1..] == "earBearer er ";
    RemoveStepMiss(s, 4);
  }

  lemma RemoveStepMatch(s: string, rest: string)
    requires s == BearerPrefix + rest && |rest| < |BearerPrefix|
    ensures RemoveAll(s, BearerPrefix) == rest
  {
    assert s[..|BearerPrefix|] == BearerPrefix;
    assert s[|BearerPrefix|..] == rest;
  }

  lemma RemoveStepMiss(s: string, i: nat)
    requires i < |BearerPrefix| <= |s| && s[i] != BearerPrefix[i]
    ensures RemoveAll(s, BearerPrefix) == [s[0]] + RemoveAll(s[1..], BearerPrefix)
  {
    assert s[..|BearerPrefix|][i] == s[i];
  }

  /** The result of an account-type check. */
  datatype Gate = Granted(token: string) | Denied(outcome: Outcome)

  /** Header present, token resolves to an account, and that account's
      `account_type` equals role. A missing header and an unknown token give
      401, a different type 403. */
  function RequireRole(header: Option<string>, accounts: map<string, Account>, role: string): (g: Gate)
    ensures g.Granted? <==> header.Some? && BearerToken(header).value in accounts
                            && accounts[BearerToken(header).value].accountType == role
    ensures g.Granted? ==> Some(g.token) == BearerToken(header)
    ensures g == Denied(Unauthorized) <==> header.None? || BearerToken(header).value !in accounts
    ensures g == Denied(Forbidden) <==> header.Some? && BearerToken(header).value in accounts
                                        && accounts[BearerToken(header).value].accountType != role
  {
    match BearerToken(header)
    case None => Denied(Unauthorized)
    case Some(token) =>
      if token !in accounts then Denied(Unauthorized)
      else if accounts[token].accountType != role then Denied(Forbidden)
      else Granted(token)
  }
}

=== FILE: database.dfy ===
/** The two pure parts of src/utils/database.rs: how `create_account` splits a
    full name into first and last name, and the `check_account` predicate. */
module Database {

  import opened Text
  import opened Store

  datatype FullName = FullName(first: string, last: string)

  /** `create_account`: the first word of the name, and the remaining words
      joined by single spaces; both empty when there are no words. */
  function SplitName(name: string): (n: FullName)
    ensures NoWhitespace(n.first)
    ensures |Words(name)| == 0 ==> n == FullName("", "")
    ensures |Words(name)| > 0 ==> n.first == Words(name)[0]
    ensures |Words(name)| < 2 ==> n.last == ""
    ensures |Words(name)| >= 2 ==> n.first + " " + n.last == Join(Words(name), " ")
  {
    var parts := Words(name);
    if |parts| == 0 then FullName("", "")
    else FullName(parts[0], Join(parts[1..], " "))
  }

  /** Splitting a first and a last name written with one space between them
      gives them back, whatever the number of words in the last name. */
  lemma SplitNameRoundTrip(first: string, rest: seq<string>)
    requires IsWord(first)
    requires |rest| > 0 && forall i :: 0 <= i < |rest| ==> IsWord(rest[i])
    ensures SplitName(first + " " + Join(rest, " ")) == FullName(first, Join(rest, " "))
  {
    var ws := [first] + rest;
    assert ws[1..] == rest;
    assert Join(ws, " ") == first + " " + Join(rest, " ");
    WordsOfJoin(ws);
  }

  /** Whitespace before and after the name does not matter. */
  lemma SplitNameIgnoresPadding(pre: string, name: string, post: string)
    requires AllWhitespace(pre) && AllWhitespace(post)
    ensures SplitName(pre + name + post) == SplitName(name)
  {
    WordsBeforeWhitespace(pre + name, post);
    WordsAfterWhitespace(pre, name);
  }

  /** A run of whitespace anywhere in the name splits like a single space. */
  lemma SplitNameCollapsesRun(a: string, ws: string, b: string)
    requires |ws| > 0 && AllWhitespace(ws)
    ensures SplitName(a + ws + b) == SplitName(a + " " + b)
  {
    WordsCollapseRun(a, ws, b);
  }

  /** `check_account`: `SELECT COUNT(*) ... WHERE email = ?1 AND password = ?2`
      compared with zero. The password is compared as stored text. */
  method CheckAccount(accounts: map<string, Account>, email: string, password: string)
    returns (found: bool)
    ensures found <==> exists k :: k in accounts && accounts[k].email == email
                                   && accounts[k].password == password
  {
    var count := 0;
    var todo := accounts.Keys;
    ghost var seen: set<string> := {};
    while todo != {}
      invariant todo !! seen && todo + seen == accounts.Keys
      invariant count == |set k | k in seen && accounts[k].email == email && accounts[k].password == password|
      decreases todo
    {
      var k :| k in todo;
      ghost var before := set k' | k' in seen && accounts[k'].email == email && accounts[k'].password == password;
      if accounts[k].email == email && accounts[k].password == password {
        assert (set k' | k' in seen + {k} && accounts[k'].email == email && accounts[k'].password == password)
            == before + {k};
        count := count + 1;
      } else {
        assert (set k' | k' in seen + {k} && accounts[k'].email == email && accounts[k'].password == password)
            == before;
      }
      todo := todo - {k};
      seen := seen + {k};
    }
    found := count > 0;
    ghost var matching := set k' | k' in accounts && accounts[k'].email == email && accounts[k'].password == password;
    if found {
      assert matching != {};
    } else {
      assert matching == {};
      assert forall k :: k in accounts && accounts[k].email == email && accounts[k].password == password ==> k in matching;
    }
  }
}

=== FILE: dateorder.dfy ===
/** `ORDER BY date DESC` on selected post rows. Text compares under SQLite's
    BINARY collation, which is the lexicographic order `LexLe`. Rows with equal
    dates may come in any order. */
module DateOrder {

  import opened Text
  import opened Listing

  predicate SortedByDateDesc(rows: seq<PostRow>)
  {
    forall i, j :: 0 <= i < j < |rows| ==> LexLe(rows[j].post.date, rows[i].post.date)
  }

  lemma ConsSorted(head: PostRow, tail: seq<PostRow>)
    requires SortedByDateDesc(tail)
    requires forall x :: x in tail ==> LexLe(x.post.date, head.post.date)
    ensures SortedByDateDesc([head] + tail)
  {
    var s := [head] + tail;
    forall i, j | 0 <= i < j < |s|
      ensures LexLe(s[j].post.date, s[i].post.date)
    {
      assert s[j] == tail[j - 1];
      if i > 0 {
        assert s[i] == tail[i - 1];
      }
    }
  }

  lemma BelowHead(row: PostRow, rows: seq<PostRow>)
    requires SortedByDateDesc(rows) && |rows| > 0
    requires LexLe(rows[0].post.date, row.post.date)
    ensures forall x :: x in rows ==> LexLe(x.post.date, row.post.date)
  {
    forall x | x in rows
      ensures LexLe(x.post.date, row.post.date)
    {
      var j :| 0 <= j < |rows| && rows[j] == x;
      if j > 0 {
        LexLeTransitive(x.post.date, rows[0].post.date, row.post.date);
      }
    }
  }

  /** Insert one row into a date-descending sequence. */
  function InsertByDate(row: PostRow, rows: seq<PostRow>): (out: seq<PostRow>)
    requires SortedByDateDesc(rows)
    ensures multiset(out) == multiset(rows) + multiset{row}
    ensures SortedByDateDesc(out)
    decreases |rows|
  {
    if |rows| == 0 then [row]
    else if LexLe(rows[0].post.date, row.post.date) then
      BelowHead(row, rows);
      ConsSorted(row, rows);
      [row] + rows
    else
      LexLeTotal(rows[0].post.date, row.post.date);
      var tail := InsertByDate(row, rows[1..]);
      assert rows == [rows[0]] + rows[1..];
      assert forall x :: x in tail ==> x == row || x in rows[1..] by {
        forall x | x in tail
          ensures x == row || x in rows[1..]
        {
          assert x in multiset(tail);
        }
      }
      ConsSorted(rows[0], tail);
      [rows[0]] + tail
  }

  /** Insertion sort by date, newest first. */
  function SortByDateDesc(rows: seq<PostRow>): (out: seq<PostRow>)
    ensures multiset(out) == multiset(rows)
    ensures SortedByDateDesc(out)
  {
    if |rows| == 0 then []
    else
      assert rows == [rows[0]] + rows[1..];
      InsertByDate(rows[0], SortByDateDesc(rows[1..]))
  }
}

=== FILE: json.dfy ===
/** The parts of `serde_json::Value` the handlers touch: a JSON tree whose
    objects are maps (serde_json's default map has no duplicate keys), the
    `Value::get` lookup, the `IndexMut` write that turns `null` into an object
    and panics on any other non-object, and the text `serde_json::to_string`
    produces for a string. */
module JsonValue {

  import opened Options

  datatype Json =
    | JNull
    | JBool(b: bool)
    | JNumber(text: string)
    | JString(s: string)
    | JArray(items: seq<Json>)
    | JObject(fields: map<string, Json>)

  /** `value.get(key)`: a field of an object; nothing for any other value. */
  function Get(j: Json, key: string): (r: Option<Json>)
    ensures r.Some? <==> j.JObject? && key in j.fields
    ensures r.Some? ==> r.value == j.fields[key]
  {
    if j.JObject? && key in j.fields then Some(j.fields[key]) else None
  }

  /** `value.get(key).and_then(|v| v.as_bool()).unwrap_or(false)`. */
  function BoolOrFalse(j: Json, key: string): (r: bool)
    ensures r <==> Get(j, key) == Some(JBool(true))
  {
    match Get(j, key)
    case Some(JBool(b)) => b
    case _ => false
  }

  /** `value[key] = v` through `IndexMut`: null first becomes an empty object;
      an object gets the key inserted or overwritten; anything else panics
      (None). */
  function SetField(j: Json, key: string, v: Json): (r: Option<Json>)
    ensures r.Some? <==> j.JObject? || j.JNull?
    ensures r.Some? ==> r.value.JObject? && Get(r.value, key) == Some(v)
    ensures r.Some? ==> forall k :: k != key ==> Get(r.value, k) == Get(j, k)
  {
    match j
    case JNull => Some(JObject(map[key := v]))
    case JObject(fs) => Some(JObject(fs[key := v]))
    case _ => None
  }

  // ---------------------------------------------------------------------------
  // serde_json::to_string on a Rust String
  // ---------------------------------------------------------------------------

  const HexDigits: string := "0123456789abcdef"

  /** serde_json's escape of one character inside a string literal. */
  function EscapeChar(c: char): (r: string)
    ensures |r| >= 1
    ensures c != '"' && c != '\\' && c >= ' ' ==> r == [c]
  {
    if c == '"' then "\\\""
    else if c == '\\' then "\\\\"
    else if c == '\U{0008}' then "\\b"
    else if c == '\U{000C}' then "\\f"
    else if c == '\n' then "\\n"
    else if c == '\r' then "\\r"
    else if c == '\t' then "\\t"
    else if c < ' ' then
      var n := c as int;
      "\\u00" + [HexDigits[n / 16], HexDigits[n % 16]]
    else [c]
  }

  function Escape(s: string): (r: string)
    ensures |r| >= |s|
  {
    if |s| == 0 then "" else EscapeChar(s[0]) + Escape(s[1..])
  }

  /** `serde_json::to_string(&s)` for a `String`: a quoted, escaped literal. */
  function QuoteString(s: string): (r: string)
    ensures |r| >= |s| + 2
    ensures r[0] == '"' && r[|r| - 1] == '"'
  {
    "\"" + Escape(s) + "\""
  }

  /** The quoted form is never the string itself. */
  lemma QuoteStringChanges(s: string)
    ensures QuoteString(s) != s
  {
  }
}

=== FILE: listing.dfy ===
/** The post listings' common query shape: select the rows of `posts` a
    WHERE clause admits. The order of the result is left open here; the
    `DateOrder` module adds `ORDER BY date DESC`. */
module Listing {

  import opened Text
  import opened Store

  /** A selected row: the post id and the post. */
  datatype PostRow = PostRow(id: int, post: Post)

  /** The WHERE clause of a listing: `status = ?` or `employer_id = ?`. */
  datatype PostFilter = WithStatus(status: PostStatus) | OwnedBy(employerId: string)
  {
    predicate Admits(p: Post)
    {
      match this
      case WithStatus(st) => p.status == st
      case OwnedBy(e) => p.employerId == e
    }
  }

  /** The rows the query must return, each post once. */
  ghost function Selected(posts: map<int, Post>, f: PostFilter): set<PostRow>
  {
    SelectedAmong(posts, f, posts.Keys)
  }

  ghost function SelectedAmong(posts: map<int, Post>, f: PostFilter, ids: set<int>): set<PostRow>
  {
    set id | id in ids && id in posts && f.Admits(posts[id]) :: PostRow(id, posts[id])
  }

  lemma SelectedAmongStep(posts: map<int, Post>, f: PostFilter, ids: set<int>, id: int)
    requires id in posts && id !in ids
    ensures f.Admits(posts[id]) ==>
      multiset(SelectedAmong(posts, f, ids + {id}))
        == multiset(SelectedAmong(posts, f, ids)) + multiset{PostRow(id, posts[id])}
    ensures !f.Admits(posts[id]) ==>
      SelectedAmong(posts, f, ids + {id}) == SelectedAmong(posts, f, ids)
  {
    var row := PostRow(id, posts[id]);
    assert row !in SelectedAmong(posts, f, ids);
    if f.Admits(posts[id]) {
      assert SelectedAmong(posts, f, ids + {id}) == SelectedAmong(posts, f, ids) + {row};
    }
  }

  /** Row membership in the selection, spelled out. */
  lemma InSelected(posts: map<int, Post>, f: PostFilter, row: PostRow)
    ensures row in Selected(posts, f) <==>
            row.id in posts && row.post == posts[row.id] && f.Admits(row.post)
  {
  }

  /** A non-empty set has a member. Stated on its own because, with the sort
      lemmas of other modules in scope, the solver does not find the witness
      for `:|` over `ids` unaided. */
  lemma NonEmptyHasMember(ids: set<int>)
    requires ids != {}
    ensures exists k :: k in ids
  {
    if forall k :: k !in ids {
      assert false;
    }
  }

  /** The selection, unordered (`SELECT * FROM posts WHERE ...`). */
  method Select(posts: map<int, Post>, f: PostFilter) returns (rows: seq<PostRow>)
    ensures multiset(rows) == multiset(Selected(posts, f))
  {
    rows := [];
    var todo := posts.Keys;
    ghost var done: set<int> := {};
    while todo != {}
      invariant todo + done == posts.Keys && todo !! done
      invariant multiset(rows) == multiset(SelectedAmong(posts, f, done))
      decreases todo
    {
      NonEmptyHasMember(todo);
      var key :| key in todo;
      SelectedAmongStep(posts, f, done, key);
      if f.Admits(posts[key]) {
        rows := rows + [PostRow(key, posts[key])];
      }
      todo := todo - {key};
      done := done + {key};
    }
    assert done == posts.Keys;
  }
}

=== FILE: options.dfy ===
/** The optional value used wherever the source has an `Option` or a lookup
    that may find nothing. */
module Options {

  datatype Option<T> = None | Some(value: T)
}

=== FILE: posts.dfy ===
/** The post handlers of src/utils/routes/posts.rs: `create_post`,
    `get_posts`, `get_pending_posts`, `get_my_posts`, `delete_post` and
    `update_post`. */
module Posts {

  import opened Options
  import opened JsonValue
  import opened Store
  import opened Auth
  import opened Profile
  import opened Listing
  import opened DateOrder

  // ---------------------------------------------------------------------------
  // Post content
  // ---------------------------------------------------------------------------

  /** The columns a post's author writes: `title` through `questions`. The
      body of `update_post` carries exactly these (its `id` is ignored). */
  datatype PostContent = PostContent(
    title: string,
    description: string,
    tags: string,
    documents: string,
    tips: string,
    skills: string,
    experience: string,
    jobtype: string,
    location: string,
    date: string,
    questions: Option<string>)

  function ContentOf(p: Post): PostContent
  {
    PostContent(p.title, p.description, p.tags, p.documents, p.tips, p.skills,
                p.experience, p.jobtype, p.location, p.date, p.questions)
  }

  /** p with its content columns overwritten by c. */
  function WithContent(p: Post, c: PostContent): (q: Post)
    ensures q.companyName == p.companyName && q.employerId == p.employerId && q.status == p.status
  {
    p.(title := c.title, description := c.description, tags := c.tags,
       documents := c.documents, tips := c.tips, skills := c.skills,
       experience := c.experience, jobtype := c.jobtype, location := c.location,
       date := c.date, questions := c.questions)
  }

  /** Content written into a post reads back unchanged. */
  lemma ContentOfWithContent(p: Post, c: PostContent)
    ensures ContentOf(WithContent(p, c)) == c
  {
  }

  /** A post is determined by its content and the three columns the author
      cannot write. */
  lemma WithOwnContent(p: Post)
    ensures WithContent(p, ContentOf(p)) == p
  {
  }

  // ---------------------------------------------------------------------------
  // Referential consistency
  // ---------------------------------------------------------------------------

  /** Every application refers to a post that exists. SQLite does not enforce
      this (no foreign keys are declared); the handlers keep it. */
  predicate Consistent(s: Store)
  {
    forall k :: k in s.applications ==> s.applications[k].postId in s.posts
  }

  // ---------------------------------------------------------------------------
  // create_post
  // ---------------------------------------------------------------------------

  datatype CreatePostRequest = CreatePostRequest(content: PostContent, companyName: string)

  /** The row `create_post` inserts: the request's columns, the caller's token
      as `employer_id`, status Pending. */
  function NewPost(req: CreatePostRequest, employerId: string): (p: Post)
    ensures ContentOf(p) == req.content
    ensures p.companyName == req.companyName && p.employerId == employerId && p.status == Pending
  {
    Post(req.content.title, req.content.description, req.content.tags, req.content.documents,
         req.content.tips, req.content.skills, req.content.experience, req.content.jobtype,
         req.content.location, req.content.date, req.content.questions,
         req.companyName, employerId, Pending)
  }

  /** `create_post`. The gates run in order: a missing header or unknown token
      gives 401, a non-employer 403, an unreadable profile 500, incomplete
      employer forms 400; only then is one post inserted, under the fresh id
      the database assigns. */
  function CreatePost(header: Option<string>, req: CreatePostRequest, newId: int, s: Store): (r: Reply)
    requires newId !in s.posts
    ensures r.outcome == Unauthorized <==> header.None? || BearerToken(header).value !in s.accounts
    ensures r.outcome == Forbidden <==>
      header.Some? && BearerToken(header).value in s.accounts
      && s.accounts[BearerToken(header).value].accountType != Employer
    ensures r.outcome == ServerError <==>
      RequireRole(header, s.accounts, Employer).Granted? && s.accounts[BearerToken(header).value].profile.None?
    ensures r.outcome == BadRequest <==>
      RequireRole(header, s.accounts, Employer).Granted?
      && s.accounts[BearerToken(header).value].profile.Some?
      && !PassesOnboarding(s.accounts[BearerToken(header).value].profile.value)
    ensures r.outcome == Ok <==>
      RequireRole(header, s.accounts, Employer).Granted?
      && s.accounts[BearerToken(header).value].profile.Some?
      && PassesOnboarding(s.accounts[BearerToken(header).value].profile.value)
    ensures r.outcome != Ok ==> r.store == s
    ensures r.outcome == Ok ==>
      && r.store.accounts == s.accounts && r.store.applications == s.applications
      && r.store.posts.Keys == s.posts.Keys + {newId}
      && (forall k :: k in s.posts ==> r.store.posts[k] == s.posts[k])
      && ContentOf(r.store.posts[newId]) == req.content
      && r.store.posts[newId].companyName == req.companyName
      && Some(r.store.posts[newId].employerId) == BearerToken(header)
      && r.store.posts[newId].status == Pending
  {
    match RequireRole(header, s.accounts, Employer)
    case Denied(o) => Reply(o, s)
    case Granted(token) =>
      match s.accounts[token].profile
      case None => Reply(ServerError, s)
      case Some(profile) =>
        if !PassesOnboarding(profile) then Reply(BadRequest, s)
        else Reply(Ok, s.(posts := s.posts[newId := NewPost(req, token)]))
  }

  /** Inserting a post keeps every application's post in place. */
  lemma CreatePostKeepsConsistent(header: Option<string>, req: CreatePostRequest, newId: int, s: Store)
    requires newId !in s.posts && Consistent(s)
    ensures Consistent(CreatePost(header, req, newId, s).store)
  {
  }

  // ---------------------------------------------------------------------------
  // The listings
  // ---------------------------------------------------------------------------

  datatype PostsReply = PostsReply(outcome: Outcome, rows: seq<PostRow>)

  /** Each row is rendered with `questions` read as a String: a NULL fails the
      row, and one failed row fails the whole listing with 500. */
  predicate Renderable(rows: seq<PostRow>)
  {
    forall i :: 0 <= i < |rows| ==> rows[i].post.questions.Some?
  }

  /** Some post the filter admits has NULL questions. */
  ghost predicate HasNullQuestions(posts: map<int, Post>, f: PostFilter)
  {
    exists id :: id in posts && f.Admits(posts[id]) && posts[id].questions.None?
  }

  /** Rows holding the selection, each once, name exactly the admitted posts. */
  lemma SelectionMembers(rows: seq<PostRow>, posts: map<int, Post>, f: PostFilter)
    requires multiset(rows) == multiset(Selected(posts, f))
    ensures forall row :: row in rows <==>
              row.id in posts && row.post == posts[row.id] && f.Admits(row.post)
    ensures forall i, j :: 0 <= i < j < |rows| ==> rows[i].id != rows[j].id
  {
    forall row
      ensures row in rows <==> row.id in posts && row.post == posts[row.id] && f.Admits(row.post)
    {
      assert row in rows <==> row in multiset(rows);
      InSelected(posts, f, row);
    }
    forall i, j | 0 <= i < j < |rows|
      ensures rows[i].id != rows[j].id
    {
      if rows[i].id == rows[j].id {
        assert rows[i] in rows && rows[j] in rows;
        RepeatCountsTwice(rows, i, j);
        assert false;
      }
    }
  }

  /** An element at two positions occurs at least twice in the multiset. */
  lemma RepeatCountsTwice<T>(rows: seq<T>, i: int, j: int)
    requires 0 <= i < j < |rows| && rows[i] == rows[j]
    ensures multiset(rows)[rows[i]] >= 2
  {
    assert rows == rows[..j] + [rows[j]] + rows[j + 1..];
    assert rows[i] in rows[..j];
  }

  /** The listing fails exactly when some admitted post has NULL questions. */
  lemma RenderableSelection(rows: seq<PostRow>, posts: map<int, Post>, f: PostFilter)
    requires multiset(rows) == multiset(Selected(posts, f))
    ensures Renderable(rows) <==> !HasNullQuestions(posts, f)
  {
    SelectionMembers(rows, posts, f);
    if !Renderable(rows) {
      var i :| 0 <= i < |rows| && rows[i].post.questions.None?;
      assert rows[i] in rows;
    }
    if HasNullQuestions(posts, f) {
      var id :| id in posts && f.Admits(posts[id]) && posts[id].questions.None?;
      assert PostRow(id, posts[id]) in rows;
    }
  }

  /** Run a selection and render it. */
  method Query(posts: map<int, Post>, f: PostFilter) returns (r: PostsReply)
    ensures r.outcome == Ok || r.outcome == ServerError
    ensures r.outcome == ServerError <==> HasNullQuestions(posts, f)
    ensures r.outcome == ServerError ==> r.rows == []
    ensures r.outcome == Ok ==> multiset(r.rows) == multiset(Selected(posts, f))
  {
    var rows := Select(posts, f);
    RenderableSelection(rows, posts, f);
    if Renderable(rows) {
      r := PostsReply(Ok, rows);
    } else {
      r := PostsReply(ServerError, []);
    }
  }

  /** `get_posts`: every Accepted post, newest date first; no authentication. */
  method GetPosts(s: Store) returns (r: PostsReply)
    ensures r.outcome == Ok || r.outcome == ServerError
    ensures r.outcome == ServerError <==> HasNullQuestions(s.posts, WithStatus(Accepted))
    ensures r.outcome == ServerError ==> r.rows == []
    ensures r.outcome == Ok ==>
      && (forall row :: row in r.rows <==>
            row.id in s.posts && row.post == s.posts[row.id] && row.post.status == Accepted)
      && (forall i, j :: 0 <= i < j < |r.rows| ==> r.rows[i].id != r.rows[j].id)
      && SortedByDateDesc(r.rows)
  {
    r := Query(s.posts, WithStatus(Accepted));
    if r.outcome == Ok {
      var sorted := SortByDateDesc(r.rows);
      SelectionMembers(sorted, s.posts, WithStatus(Accepted));
      r := PostsReply(Ok, sorted);
    }
  }

  /** `get_pending_posts`: administrators only; every Pending post, newest
      date first. */
  method GetPendingPosts(header: Option<string>, s: Store) returns (r: PostsReply)
    ensures r.outcome == Unauthorized <==> header.None? || BearerToken(header).value !in s.accounts
    ensures r.outcome == Forbidden <==>
      header.Some? && BearerToken(header).value in s.accounts
      && s.accounts[BearerToken(header).value].accountType != Administrator
    ensures r.outcome == ServerError <==>
      RequireRole(header, s.accounts, Administrator).Granted? && HasNullQuestions(s.posts, WithStatus(Pending))
    ensures r.outcome == Ok <==>
      RequireRole(header, s.accounts, Administrator).Granted? && !HasNullQuestions(s.posts, WithStatus(Pending))
    ensures r.outcome in {Ok, Unauthorized, Forbidden, ServerError}
    ensures r.outcome != Ok ==> r.rows == []
    ensures r.outcome == Ok ==>
      && (forall row :: row in r.rows <==>
            row.id in s.posts && row.post == s.posts[row.id] && row.post.status == Pending)
      && (forall i, j :: 0 <= i < j < |r.rows| ==> r.rows[i].id != r.rows[j].id)
      && SortedByDateDesc(r.rows)
  {
    match RequireRole(header, s.accounts, Administrator)
    case Denied(o) =>
      r := PostsReply(o, []);
    case Granted(_) =>
      r := Query(s.posts, WithStatus(Pending));
      if r.outcome == Ok {
        var sorted := SortByDateDesc(r.rows);
        SelectionMembers(sorted, s.posts, WithStatus(Pending));
        r := PostsReply(Ok, sorted);
      }
  }

  /** `get_my_posts`: every post whose `employer_id` is the token, of any
      status, in no particular order. The token is not looked up. */
  method GetMyPosts(header: Option<string>, s: Store) returns (r: PostsReply)
    ensures r.outcome == Unauthorized <==> header.None?
    ensures r.outcome == ServerError <==>
      header.Some? && HasNullQuestions(s.posts, OwnedBy(BearerToken(header).value))
    ensures r.outcome == Ok <==>
      header.Some? && !HasNullQuestions(s.posts, OwnedBy(BearerToken(header).value))
    ensures r.outcome in {Ok, Unauthorized, ServerError}
    ensures r.outcome != Ok ==> r.rows == []
    ensures r.outcome == Ok ==>
      && (forall row :: row in r.rows <==>
            row.id in s.posts && row.post == s.posts[row.id]
            && Some(row.post.employerId) == BearerToken(header))
      && (forall i, j :: 0 <= i < j < |r.rows| ==> r.rows[i].id != r.rows[j].id)
  {
    match BearerToken(header)
    case None =>
      r := PostsReply(Unauthorized, []);
    case Some(token) =>
      r := Query(s.posts, OwnedBy(token));
      if r.outcome == Ok {
        SelectionMembers(r.rows, s.posts, OwnedBy(token));
      }
  }

  // ---------------------------------------------------------------------------
  // Ownership of a post
  // ---------------------------------------------------------------------------

  /** The ownership check `delete_post` and `update_post` share: the header
      must be present, the post must exist (`missing` is the outcome when it
      does not), and its `employer_id` must equal the token. No account is
      looked up: the token only has to match the stored string. */
  function OwnerGate(header: Option<string>, id: int, posts: map<int, Post>, missing: Outcome): (g: Gate)
    ensures g.Granted? <==> header.Some? && id in posts && posts[id].employerId == BearerToken(header).value
    ensures g.Granted? ==> Some(g.token) == BearerToken(header)
    ensures g == Denied(Unauthorized) <==> header.None? || (missing == Unauthorized && id !in posts)
    ensures header.Some? && id !in posts ==> g == Denied(missing)
    ensures g == Denied(Forbidden) <==>
      header.Some? && ((id in posts && posts[id].employerId != BearerToken(header).value)
                       || (id !in posts && missing == Forbidden))
  {
    match BearerToken(header)
    case None => Denied(Unauthorized)
    case Some(token) =>
      if id !in posts then Denied(missing)
      else if posts[id].employerId != token then Denied(Forbidden)
      else Granted(token)
  }

  // ---------------------------------------------------------------------------
  // delete_post
  // ---------------------------------------------------------------------------

  /** The first statement of the cascade: `DELETE FROM applications WHERE
      post_id = ?`. */
  function DropApplicationsOf(s: Store, postId: int): (s': Store)
    ensures s'.accounts == s.accounts && s'.posts == s.posts
    ensures forall k :: k in s'.applications <==> k in s.applications && s.applications[k].postId != postId
    ensures forall k :: k in s'.applications ==> s'.applications[k] == s.applications[k]
  {
    s.(applications := map k | k in s.applications && s.applications[k].postId != postId :: s.applications[k])
  }

  /** The second statement: `DELETE FROM posts WHERE id = ?`. */
  function DropPost(s: Store, postId: int): (s': Store)
    ensures s'.accounts == s.accounts && s'.applications == s.applications
    ensures s'.posts.Keys == s.posts.Keys - {postId}
    ensures forall k :: k in s'.posts ==> s'.posts[k] == s.posts[k]
  {
    s.(posts := s.posts - {postId})
  }

  /** `delete_post`. A missing post is reported as 500, not 404: the
      ownership query's "no rows" error takes the generic error path. On
      success the post's applications go first, then the post. */
  function DeletePost(header: Option<string>, id: int, s: Store): (r: Reply)
    ensures r.outcome == Unauthorized <==> header.None?
    ensures r.outcome == ServerError <==> header.Some? && id !in s.posts
    ensures r.outcome == Forbidden <==>
      header.Some? && id in s.posts && Some(s.posts[id].employerId) != BearerToken(header)
    ensures r.outcome == Ok <==>
      header.Some? && id in s.posts && Some(s.posts[id].employerId) == BearerToken(header)
    ensures r.outcome in {Ok, Unauthorized, Forbidden, ServerError}
    ensures r.outcome != Ok ==> r.store == s
    ensures r.outcome == Ok ==>
      && r.store.accounts == s.accounts
      && r.store.posts.Keys == s.posts.Keys - {id}
      && (forall k :: k in r.store.posts ==> r.store.posts[k] == s.posts[k])
      && (forall k :: k in r.store.applications <==> k in s.applications && s.applications[k].postId != id)
      && (forall k :: k in r.store.applications ==> r.store.applications[k] == s.applications[k])
  {
    match OwnerGate(header, id, s.posts, ServerError)
    case Denied(o) => Reply(o, s)
    case Granted(_) =>
      var afterApplications := DropApplicationsOf(s, id);
      Reply(Ok, DropPost(afterApplications, id))
  }

  /** The two statements run without a transaction. The state between them
      still holds the post, and it is consistent whenever the original was:
      stopping after the first statement loses applications but leaves no
      dangling one. */
  lemma {:induction false} CascadeMidpointConsistent(s: Store, id: int)
    requires Consistent(s)
    ensures var mid := DropApplicationsOf(s, id);
            && Consistent(mid)
            && mid.posts == s.posts
            && forall k :: k in mid.applications ==> mid.applications[k].postId != id
  {
    var mid := DropApplicationsOf(s, id);
    forall k | k in mid.applications
      ensures mid.applications[k].postId in mid.posts && mid.applications[k].postId != id
    {
      assert k in s.applications && s.applications[k].postId != id;
    }
  }

  /** Deleting a post leaves no application pointing at it. */
  lemma {:induction false} DeletePostKeepsConsistent(header: Option<string>, id: int, s: Store)
    requires Consistent(s)
    ensures Consistent(DeletePost(header, id, s).store)
  {
    var r := DeletePost(header, id, s);
    if r.outcome == Ok {
      CascadeMidpointConsistent(s, id);
      forall k | k in r.store.applications
        ensures r.store.applications[k].postId in r.store.posts
      {
        assert k in s.applications && s.applications[k].postId != id;
        assert s.applications[k].postId in s.posts;
      }
    }
  }

  // ---------------------------------------------------------------------------
  // update_post
  // ---------------------------------------------------------------------------

  /** `update_post` with the body's content stored as given. A missing header
      gives 401, an absent post 404, a non-owner 403; otherwise the content
      columns are overwritten and `company_name`, `employer_id` and `status`
      stay. */
  function UpdatePost(header: Option<string>, id: int, c: PostContent, s: Store): (r: Reply)
    ensures r.outcome == Unauthorized <==> header.None?
    ensures r.outcome == NotFound <==> header.Some? && id !in s.posts
    ensures r.outcome == Forbidden <==>
      header.Some? && id in s.posts && Some(s.posts[id].employerId) != BearerToken(header)
    ensures r.outcome == Ok <==>
      header.Some? && id in s.posts && Some(s.posts[id].employerId) == BearerToken(header)
    ensures r.outcome in {Ok, Unauthorized, Forbidden, NotFound}
    ensures r.outcome != Ok ==> r.store == s
    ensures r.outcome == Ok ==>
      && r.store.accounts == s.accounts && r.store.applications == s.applications
      && r.store.posts.Keys == s.posts.Keys
      && (forall k :: k in s.posts && k != id ==> r.store.posts[k] == s.posts[k])
      && ContentOf(r.store.posts[id]) == c
      && r.store.posts[id].companyName == s.posts[id].companyName
      && r.store.posts[id].employerId == s.posts[id].employerId
      && r.store.posts[id].status == s.posts[id].status
  {
    match OwnerGate(header, id, s.posts, NotFound)
    case Denied(o) => Reply(o, s)
    case Granted(_) =>
      ContentOfWithContent(s.posts[id], c);
      Reply(Ok, s.(posts := s.posts[id := WithContent(s.posts[id], c)]))
  }

  /** Saving a post's own content back changes nothing. */
  lemma UpdateWithOwnContent(header: Option<string>, id: int, s: Store)
    requires id in s.posts && Some(s.posts[id].employerId) == BearerToken(header)
    ensures UpdatePost(header, id, ContentOf(s.posts[id]), s) == Reply(Ok, s)
  {
    WithOwnContent(s.posts[id]);
    assert s.posts[id := s.posts[id]] == s.posts;
  }

  /** Repeating an update is the same as doing it once. */
  lemma UpdatePostIdempotent(header: Option<string>, id: int, c: PostContent, s: Store)
    ensures var once := UpdatePost(header, id, c, s);
            UpdatePost(header, id, c, once.store) == once
  {
    var once := UpdatePost(header, id, c, s);
    if once.outcome == Ok {
      var p := once.store.posts[id];
      assert WithContent(p, c) == p;
      assert once.store.posts[id := p] == once.store.posts;
    }
  }

  /** Updating never touches applications or posts' ownership. */
  lemma UpdatePostKeepsConsistent(header: Option<string>, id: int, c: PostContent, s: Store)
    requires Consistent(s)
    ensures Consistent(UpdatePost(header, id, c, s).store)
  {
  }

  /** `serde_json::to_string` of the four fields the source encodes before
      binding them: `tags`, `tips` and `skills` become quoted JSON literals,
      `questions` becomes "null" or a quoted literal. */
  function EncodedAsWritten(c: PostContent): (e: PostContent)
    ensures e.title == c.title && e.description == c.description && e.documents == c.documents
    ensures e.experience == c.experience && e.jobtype == c.jobtype
    ensures e.location == c.location && e.date == c.date
    ensures e.tags == QuoteString(c.tags) && e.tips == QuoteString(c.tips) && e.skills == QuoteString(c.skills)
    ensures e.questions == Some(if c.questions.Some? then QuoteString(c.questions.value) else "null")
  {
    c.(tags := QuoteString(c.tags), tips := QuoteString(c.tips), skills := QuoteString(c.skills),
       questions := Some(match c.questions
                         case None => "null"
                         case Some(q) => QuoteString(q)))
  }

  /** `update_post` as the source writes it. */
  function UpdatePostAsWritten(header: Option<string>, id: int, c: PostContent, s: Store): (r: Reply)
    ensures r.outcome == Ok ==> id in r.store.posts && r.store.posts[id].tags == QuoteString(c.tags)
    ensures r.outcome == Ok ==> id in r.store.posts && r.store.posts[id].questions.Some?
    ensures r.outcome == Ok ==> id in r.store.posts && r.store.posts[id].tips == QuoteString(c.tips)
                                && r.store.posts[id].skills == QuoteString(c.skills)
    ensures r.outcome == UpdatePost(header, id, c, s).outcome
    ensures r.outcome != Ok ==> r.store == s
    ensures r.outcome == Ok ==>
      && r.store.accounts == s.accounts && r.store.applications == s.applications
      && r.store.posts.Keys == s.posts.Keys
      && (forall k :: k in s.posts && k != id ==> r.store.posts[k] == s.posts[k])
      && ContentOf(r.store.posts[id]) == EncodedAsWritten(c)
      && r.store.posts[id].companyName == s.posts[id].companyName
      && r.store.posts[id].employerId == s.posts[id].employerId
      && r.store.posts[id].status == s.posts[id].status
  {
    UpdatePost(header, id, EncodedAsWritten(c), s)
  }

  /** The as-written update overwrites content columns only, so it keeps the
      invariant as well. */
  lemma UpdatePostAsWrittenKeepsConsistent(header: Option<string>, id: int, c: PostContent, s: Store)
    requires Consistent(s)
    ensures Consistent(UpdatePostAsWritten(header, id, c, s).store)
  {
    UpdatePostKeepsConsistent(header, id, EncodedAsWritten(c), s);
  }

  /** Saving a post's own content back through the source's update alters
      its tags, and saving again alters them again: an edit form that
      resubmits what it read never reaches a fixed point. */
  lemma AsWrittenUpdateDrifts(header: Option<string>, id: int, s: Store)
    requires id in s.posts && Some(s.posts[id].employerId) == BearerToken(header)
    ensures var once := UpdatePostAsWritten(header, id, ContentOf(s.posts[id]), s);
            && once.outcome == Ok
            && once.store.posts[id].tags != s.posts[id].tags
            && var twice := UpdatePostAsWritten(header, id, ContentOf(once.store.posts[id]), once.store);
               twice.outcome == Ok && twice.store.posts[id].tags != once.store.posts[id].tags
  {
    var once := UpdatePostAsWritten(header, id, ContentOf(s.posts[id]), s);
    QuoteStringChanges(s.posts[id].tags);
    QuoteStringChanges(once.store.posts[id].tags);
  }

  /** A concrete instance: tags "rust" are stored back as "\"rust\"". */
  lemma AsWrittenQuotesTags()
    ensures QuoteString("rust") == "\"rust\""
  {
    assert Escape("rust") == "rust" by {
      assert Escape("") == "";
      assert Escape("t") == "t";
      assert Escape("st") == "st";
      assert Escape("ust") == "ust";
    }
  }
}

=== FILE: profile.dfy ===
/** The account profile blob of src/data/new_user.rs: its typed shape
    (`ProfileInfo`), the default a new account receives, its JSON encoding and
    the typed decoding `get_by_uuid` performs, plus the two places that read or
    write the blob as untyped JSON: the onboarding gate of `create_post` and the
    flag write of `update_employer_agreements`. */
module Profile {

  import opened Options
  import opened JsonValue

  datatype StudentForms = StudentForms(
    resume: bool, transcript: bool, agreement: bool, backgroundCheck: bool)

  /** The four employer onboarding flags; also the body of the agreements
      request, which carries exactly these four booleans. */
  datatype EmployerForms = EmployerForms(
    employerAgreement: bool, jobPostingGuidelines: bool,
    insuranceCertificate: bool, benefitsDescription: bool)

  datatype Forms = Forms(student: StudentForms, employer: EmployerForms)

  datatype Tasks = Tasks(student: seq<string>, employer: seq<string>)

  datatype ProfileInfo = ProfileInfo(pfp: string, forms: Forms, tasks: Tasks)

  // ---------------------------------------------------------------------------
  // The default profile of a new account
  // ---------------------------------------------------------------------------

  const DefaultPfp: string := "https://github.com/leafdevs.png"

  const DefaultStudentTasks: seq<string> :=
    ["Complete profile", "Upload resume", "Submit required forms"]

  const DefaultEmployerTasks: seq<string> :=
    ["Complete company profile", "Submit required documentation", "Post job opportunities"]

  const NoStudentForms: StudentForms := StudentForms(false, false, false, false)

  const NoEmployerForms: EmployerForms := EmployerForms(false, false, false, false)

  const AllEmployerForms: EmployerForms := EmployerForms(true, true, true, true)

  /** The profile `NewUser::new` builds: every form flag false, the fixed task
      lists, the project's avatar. */
  function DefaultProfile(): (p: ProfileInfo)
    ensures p.forms.student == StudentForms(false, false, false, false)
    ensures p.forms.employer == EmployerForms(false, false, false, false)
    ensures p.tasks.student == ["Complete profile", "Upload resume", "Submit required forms"]
    ensures p.tasks.employer ==
      ["Complete company profile", "Submit required documentation", "Post job opportunities"]
    ensures p.pfp == "https://github.com/leafdevs.png"
  {
    ProfileInfo(DefaultPfp, Forms(NoStudentForms, NoEmployerForms),
                Tasks(DefaultStudentTasks, DefaultEmployerTasks))
  }

  // ---------------------------------------------------------------------------
  // JSON field names
  // ---------------------------------------------------------------------------

  const KeyPfp := "pfp"
  const KeyForms := "forms"
  const KeyTasks := "tasks"
  const KeyStudent := "student"
  const KeyEmployer := "employer"

  const KeyResume := "resume"
  const KeyTranscript := "transcript"
  const KeyAgreement := "agreement"
  const KeyBackgroundCheck := "background_check"

  const KeyEmployerAgreement := "employer_agreement"
  const KeyJobPostingGuidelines := "job_posting_guidelines"
  const KeyInsuranceCertificate := "insurance_certificate"
  const KeyBenefitsDescription := "benefits_description"

  // ---------------------------------------------------------------------------
  // Encoding (serde_json::to_string of ProfileInfo, as `dump` stores it)
  // ---------------------------------------------------------------------------

  function EncodeStudentForms(f: StudentForms): Json
  {
    JObject(map[KeyResume := JBool(f.resume), KeyTranscript := JBool(f.transcript),
                KeyAgreement := JBool(f.agreement), KeyBackgroundCheck := JBool(f.backgroundCheck)])
  }

  function EncodeEmployerForms(f: EmployerForms): Json
  {
    JObject(map[KeyEmployerAgreement := JBool(f.employerAgreement),
                KeyJobPostingGuidelines := JBool(f.jobPostingGuidelines),
                KeyInsuranceCertificate := JBool(f.insuranceCertificate),
                KeyBenefitsDescription := JBool(f.benefitsDescription)])
  }

  function EncodeStrings(ss: seq<string>): (items: seq<Json>)
    ensures |items| == |ss|
    ensures forall i :: 0 <= i < |ss| ==> items[i] == JString(ss[i])
  {
    if |ss| == 0 then [] else [JString(ss[0])] + EncodeStrings(ss[1..])
  }

  function Encode(p: ProfileInfo): Json
  {
    JObject(map[
      KeyPfp := JString(p.pfp),
      KeyForms := JObject(map[KeyStudent := EncodeStudentForms(p.forms.student),
                              KeyEmployer := EncodeEmployerForms(p.forms.employer)]),
      KeyTasks := JObject(map[KeyStudent := JArray(EncodeStrings(p.tasks.student)),
                              KeyEmployer := JArray(EncodeStrings(p.tasks.employer))])])
  }

  // ---------------------------------------------------------------------------
  // Decoding (serde's derived Deserialize for ProfileInfo, object form only:
  // every field required, each of the declared type, extra fields ignored;
  // the array form serde also accepts is not decoded)
  // ---------------------------------------------------------------------------

  function DecodeBool(j: Json, key: string): (r: Option<bool>)
    ensures r.Some? <==> Get(j, key).Some? && Get(j, key).value.JBool?
    ensures r.Some? ==> Get(j, key) == Some(JBool(r.value))
  {
    match Get(j, key)
    case Some(JBool(b)) => Some(b)
    case _ => None
  }

  function DecodeStudentForms(j: Json): Option<StudentForms>
  {
    match (DecodeBool(j, KeyResume), DecodeBool(j, KeyTranscript),
           DecodeBool(j, KeyAgreement), DecodeBool(j, KeyBackgroundCheck))
    case (Some(a), Some(b), Some(c), Some(d)) => Some(StudentForms(a, b, c, d))
    case _ => None
  }

  function DecodeEmployerForms(j: Json): Option<EmployerForms>
  {
    match (DecodeBool(j, KeyEmployerAgreement), DecodeBool(j, KeyJobPostingGuidelines),
           DecodeBool(j, KeyInsuranceCertificate), DecodeBool(j, KeyBenefitsDescription))
    case (Some(a), Some(b), Some(c), Some(d)) => Some(EmployerForms(a, b, c, d))
    case _ => None
  }

  /** A JSON array decodes as `Vec<String>` exactly when every item is a string. */
  function DecodeStrings(items: seq<Json>): (r: Option<seq<string>>)
    ensures r.Some? <==> forall i :: 0 <= i < |items| ==> items[i].JString?
    ensures r.Some? ==> |r.value| == |items|
                        && forall i :: 0 <= i < |items| ==> items[i] == JString(r.value[i])
  {
    if |items| == 0 then Some([])
    else match (items[0], DecodeStrings(items[1..]))
      case (JString(s), Some(rest)) => Some([s] + rest)
      case _ => None
  }

  function DecodeStringList(j: Json): Option<seq<string>>
  {
    match j
    case JArray(items) => DecodeStrings(items)
    case _ => None
  }

  function DecodeString(j: Json): Option<string>
  {
    match j
    case JString(s) => Some(s)
    case _ => None
  }

  function DecodeForms(j: Json): Option<Forms>
  {
    match (Get(j, KeyStudent), Get(j, KeyEmployer))
    case (Some(s), Some(e)) =>
      (match (DecodeStudentForms(s), DecodeEmployerForms(e))
       case (Some(sf), Some(ef)) => Some(Forms(sf, ef))
       case _ => None)
    case _ => None
  }

  function DecodeTasks(j: Json): Option<Tasks>
  {
    match (Get(j, KeyStudent), Get(j, KeyEmployer))
    case (Some(s), Some(e)) =>
      (match (DecodeStringList(s), DecodeStringList(e))
       case (Some(st), Some(et)) => Some(Tasks(st, et))
       case _ => None)
    case _ => None
  }

  function Decode(j: Json): Option<ProfileInfo>
  {
    match (Get(j, KeyPfp), Get(j, KeyForms), Get(j, KeyTasks))
    case (Some(p), Some(f), Some(t)) =>
      (match (DecodeString(p), DecodeForms(f), DecodeTasks(t))
       case (Some(pfp), Some(forms), Some(tasks)) => Some(ProfileInfo(pfp, forms, tasks))
       case _ => None)
    case _ => None
  }

  /** A stored profile reads back as the profile that was stored. */
  lemma DecodeEncode(p: ProfileInfo)
    ensures Decode(Encode(p)) == Some(p)
  {
    var j := Encode(p);
    assert Get(j, KeyPfp) == Some(JString(p.pfp));
    DecodeFormsEncoded(p.forms);
    DecodeTasksEncoded(p.tasks);
  }

  lemma DecodeFormsEncoded(f: Forms)
    ensures DecodeForms(JObject(map[KeyStudent := EncodeStudentForms(f.student),
                                    KeyEmployer := EncodeEmployerForms(f.employer)]))
         == Some(f)
  {
    assert DecodeStudentForms(EncodeStudentForms(f.student)) == Some(f.student);
    assert DecodeEmployerForms(EncodeEmployerForms(f.employer)) == Some(f.employer);
  }

  lemma DecodeTasksEncoded(t: Tasks)
    ensures DecodeTasks(JObject(map[KeyStudent := JArray(EncodeStrings(t.student)),
                                    KeyEmployer := JArray(EncodeStrings(t.employer))]))
         == Some(t)
  {
    DecodeEncodeStrings(t.student);
    DecodeEncodeStrings(t.employer);
  }

  lemma DecodeEncodeStrings(ss: seq<string>)
    ensures DecodeStrings(EncodeStrings(ss)) == Some(ss)
  {
    var items := EncodeStrings(ss);
    var r := DecodeStrings(items);
    assert r.Some?;
    forall i | 0 <= i < |ss|
      ensures r.value[i] == ss[i]
    {
      assert items[i] == JString(ss[i]) == JString(r.value[i]);
    }
    assert r.value == ss;
  }

  // ---------------------------------------------------------------------------
  // Untyped reads and writes of profile.forms.employer
  // ---------------------------------------------------------------------------

  /** `profile.get("forms")` followed by `.get("employer")`. */
  function EmployerSection(profile: Json): (r: Option<Json>)
    ensures r.Some? <==> Get(profile, KeyForms).Some? && Get(Get(profile, KeyForms).value, KeyEmployer).Some?
    ensures r.Some? ==> r == Get(Get(profile, KeyForms).value, KeyEmployer)
  {
    match Get(profile, KeyForms)
    case None => None
    case Some(forms) => Get(forms, KeyEmployer)
  }

  /** The four flags are each the JSON value `true`; a missing flag or one of
      another type counts as false. */
  predicate FlagsAllTrue(employer: Json)
  {
    && BoolOrFalse(employer, KeyEmployerAgreement)
    && BoolOrFalse(employer, KeyJobPostingGuidelines)
    && BoolOrFalse(employer, KeyInsuranceCertificate)
    && BoolOrFalse(employer, KeyBenefitsDescription)
  }

  /** The onboarding gate of `create_post`: it applies only when the profile has
      `forms.employer`, and then every flag must be `true`. */
  predicate PassesOnboarding(profile: Json)
  {
    match EmployerSection(profile)
    case None => true
    case Some(employer) => FlagsAllTrue(employer)
  }

  /** The four `employer[flag] = json!(value)` writes, in source order; None is
      the panic `IndexMut` raises on a value that is neither object nor null. */
  function WriteFlags(employer: Json, a: EmployerForms): (r: Option<Json>)
    ensures r.Some? <==> employer.JObject? || employer.JNull?
    ensures r.Some? ==> r.value.JObject?
    ensures r.Some? ==> DecodeEmployerForms(r.value) == Some(a)
    ensures r.Some? && employer.JObject? ==>
      forall k :: k !in {KeyEmployerAgreement, KeyJobPostingGuidelines,
                         KeyInsuranceCertificate, KeyBenefitsDescription} ==>
        Get(r.value, k) == Get(employer, k)
  {
    match SetField(employer, KeyEmployerAgreement, JBool(a.employerAgreement))
    case None => None
    case Some(e1) =>
      var e2 := SetField(e1, KeyJobPostingGuidelines, JBool(a.jobPostingGuidelines)).value;
      var e3 := SetField(e2, KeyInsuranceCertificate, JBool(a.insuranceCertificate)).value;
      SetField(e3, KeyBenefitsDescription, JBool(a.benefitsDescription))
  }

  /** The profile rewrite of `update_employer_agreements`. Only an existing
      `forms.employer` is touched; None is the panic of `WriteFlags`. */
  function ApplyAgreements(profile: Json, a: EmployerForms): (r: Option<Json>)
    ensures EmployerSection(profile).None? ==> r == Some(profile)
    ensures r.None? <==> EmployerSection(profile).Some?
                         && !EmployerSection(profile).value.JObject?
                         && !EmployerSection(profile).value.JNull?
    ensures r.Some? && EmployerSection(profile).Some? ==>
      && EmployerSection(r.value).Some?
      && DecodeEmployerForms(EmployerSection(r.value).value) == Some(a)
      && (forall k :: k != KeyForms ==> Get(r.value, k) == Get(profile, k))
      && (forall k :: k != KeyEmployer ==>
            Get(Get(r.value, KeyForms).value, k) == Get(Get(profile, KeyForms).value, k))
    ensures r.Some? && EmployerSection(profile).Some? && EmployerSection(profile).value.JObject? ==>
      forall k :: k !in {KeyEmployerAgreement, KeyJobPostingGuidelines,
                         KeyInsuranceCertificate, KeyBenefitsDescription} ==>
        Get(EmployerSection(r.value).value, k) == Get(EmployerSection(profile).value, k)
  {
    match Get(profile, KeyForms)
    case None => Some(profile)
    case Some(forms) =>
      match Get(forms, KeyEmployer)
      case None => Some(profile)
      case Some(employer) =>
        match WriteFlags(employer, a)
        case None => None
        case Some(employer') =>
          Some(JObject(profile.fields[KeyForms := JObject(forms.fields[KeyEmployer := employer'])]))
  }

  /** On the JSON of a typed profile the gate is exactly "all four employer
      forms are complete". */
  lemma PassesOnboardingEncoded(p: ProfileInfo)
    ensures PassesOnboarding(Encode(p)) <==> p.forms.employer == AllEmployerForms
  {
    assert EmployerSection(Encode(p)) == Some(EncodeEmployerForms(p.forms.employer));
  }

  /** A new account's profile fails the gate. */
  lemma DefaultProfileFailsOnboarding()
    ensures !PassesOnboarding(Encode(DefaultProfile()))
  {
    PassesOnboardingEncoded(DefaultProfile());
  }

  /** Writing four true flags into any profile the write does not panic on
      makes the gate pass. */
  lemma AgreementsOpenGate(profile: Json)
    requires ApplyAgreements(profile, AllEmployerForms).Some?
    ensures PassesOnboarding(ApplyAgreements(profile, AllEmployerForms).value)
  {
    var r := ApplyAgreements(profile, AllEmployerForms).value;
    if EmployerSection(profile).Some? {
      var e := EmployerSection(r).value;
      assert DecodeEmployerForms(e) == Some(AllEmployerForms);
      assert DecodeBool(e, KeyEmployerAgreement) == Some(true);
      assert DecodeBool(e, KeyJobPostingGuidelines) == Some(true);
      assert DecodeBool(e, KeyInsuranceCertificate) == Some(true);
      assert DecodeBool(e, KeyBenefitsDescription) == Some(true);
    }
  }

  /** On the JSON of a typed profile the agreements write is the typed update
      of the employer forms, and nothing else. */
  lemma WriteFlagsEncoded(f: EmployerForms, a: EmployerForms)
    ensures WriteFlags(EncodeEmployerForms(f), a) == Some(EncodeEmployerForms(a))
  {
    var m := EncodeEmployerForms(f).fields;
    var m' := m[KeyEmployerAgreement := JBool(a.employerAgreement)]
               [KeyJobPostingGuidelines := JBool(a.jobPostingGuidelines)]
               [KeyInsuranceCertificate := JBool(a.insuranceCertificate)]
               [KeyBenefitsDescription := JBool(a.benefitsDescription)];
    assert WriteFlags(EncodeEmployerForms(f), a) == Some(JObject(m'));
    assert m'.Keys == EncodeEmployerForms(a).fields.Keys;
    assert m' == EncodeEmployerForms(a).fields;
  }

  /** On the JSON of a typed profile the agreements write is the typed update
      of the employer forms, and nothing else. */
  lemma ApplyAgreementsEncoded(p: ProfileInfo, a: EmployerForms)
    ensures ApplyAgreements(Encode(p), a)
         == Some(Encode(p.(forms := p.forms.(employer := a))))
  {
    var j := Encode(p);
    var q := p.(forms := p.forms.(employer := a));
    var forms := j.fields[KeyForms];
    assert Get(j, KeyForms) == Some(forms);
    assert Get(forms, KeyEmployer) == Some(EncodeEmployerForms(p.forms.employer));
    WriteFlagsEncoded(p.forms.employer, a);
    var forms' := forms.fields[KeyEmployer := EncodeEmployerForms(a)];
    assert forms' == Encode(q).fields[KeyForms].fields;
    assert j.fields[KeyForms := JObject(forms')] == Encode(q).fields;
  }

  /** Read through the typed decoding, the agreements write replaces the
      employer forms and keeps the avatar, the student forms and the tasks. */
  lemma DecodeAfterAgreements(profile: Json, a: EmployerForms)
    requires Decode(profile).Some?
    ensures ApplyAgreements(profile, a).Some?
    ensures Decode(ApplyAgreements(profile, a).value)
         == Some(Decode(profile).value.(forms := Decode(profile).value.forms.(employer := a)))
  {
    var p := Decode(profile).value;
    var forms := Get(profile, KeyForms).value;
    assert DecodeForms(forms).Some?;
    var employer := Get(forms, KeyEmployer).value;
    assert DecodeEmployerForms(employer).Some?;
    assert employer.JObject?;
    var r := ApplyAgreements(profile, a).value;
    var forms' := Get(r, KeyForms).value;
    assert Get(forms', KeyStudent) == Get(forms, KeyStudent);
    assert DecodeForms(forms') == Some(p.forms.(employer := a));
    assert Get(r, KeyPfp) == Get(profile, KeyPfp);
    assert Get(r, KeyTasks) == Get(profile, KeyTasks);
  }
}

=== FILE: scenarios.dfy ===
/** Properties that span several handlers: the employer onboarding flow from
    registration to the first post, and deletion undoing creation. */
module Scenarios {

  import opened Options
  import opened Text
  import opened Profile
  import opened Store
  import opened Auth
  import opened Users
  import opened Accounts
  import opened Posts
  import opened Applications

  /** A freshly registered employer is turned away by `create_post` with 400
      until the employer forms are recorded. */
  lemma {:induction false} FreshEmployerCannotPost(
    req: RegisterRequest, hash: string -> string, uuid: string,
    post: CreatePostRequest, newId: int, s: Store)
    requires uuid !in s.accounts && newId !in s.posts
    requires req.accountType == Employer
    requires IsVisibleAscii(uuid) && ' ' !in uuid
    ensures var s1 := Register(Some(req), hash, uuid, s).store;
            var r := CreatePost(Some(uuid), post, newId, s1);
            r.outcome == BadRequest && r.store == s1
  {
    BearerTokenRoundTrip(uuid);
    var s1 := Register(Some(req), hash, uuid, s).store;
    var u := CreateUser(req.email, req.password, req.firstName, req.lastName, req.accountType, hash, uuid);
    assert s1.accounts[uuid] == u.account;
  }

  /** Recording all four agreements opens the gate: the same employer's next
      `create_post` succeeds. */
  lemma {:induction false} AgreementsThenPost(
    req: RegisterRequest, hash: string -> string, uuid: string,
    post: CreatePostRequest, newId: int, s: Store)
    requires uuid !in s.accounts && newId !in s.posts
    requires req.accountType == Employer
    requires IsVisibleAscii(uuid) && ' ' !in uuid
    ensures var s1 := Register(Some(req), hash, uuid, s).store;
            var s2 := UpdateEmployerAgreements(Some(uuid), AllEmployerForms, s1);
            && s2.outcome == Ok
            && newId !in s2.store.posts
            && CreatePost(Some(uuid), post, newId, s2.store).outcome == Ok
  {
    BearerTokenRoundTrip(uuid);
    var s1 := Register(Some(req), hash, uuid, s).store;
    var u := CreateUser(req.email, req.password, req.firstName, req.lastName, req.accountType, hash, uuid);
    assert s1.accounts[uuid] == u.account;
    var profile := u.account.profile.value;
    assert profile == Encode(DefaultProfile());
    ApplyAgreementsEncoded(DefaultProfile(), AllEmployerForms);
    AgreementsOpenGate(profile);
    var s2 := UpdateEmployerAgreements(Some(uuid), AllEmployerForms, s1);
    assert s2.store.accounts[uuid].profile == ApplyAgreements(profile, AllEmployerForms);
  }

  /** In a consistent store, the owner deleting a post they just created
      restores the store: no application can refer to the new id yet. */
  lemma {:induction false} DeleteUndoesCreate(
    header: Option<string>, req: CreatePostRequest, newId: int, s: Store)
    requires newId !in s.posts && Consistent(s)
    requires CreatePost(header, req, newId, s).outcome == Ok
    ensures var created := CreatePost(header, req, newId, s).store;
            DeletePost(header, newId, created) == Reply(Ok, s)
  {
    var created := CreatePost(header, req, newId, s).store;
    var r := DeletePost(header, newId, created);
    assert r.outcome == Ok;
    assert r.store.posts == s.posts;
    assert r.store.applications == s.applications by {
      forall k | k in s.applications
        ensures s.applications[k].postId != newId
      {
        assert s.applications[k].postId in s.posts;
      }
    }
  }

  /** Deleting a post takes the applications to it along: an application
      created for the post is gone afterwards, while the post's deletion
      succeeds for its owner whatever the applicant did. */
  lemma {:induction false} DeleteRemovesApplications(
    owner: Option<string>, applicant: Option<string>, postId: int, req: ApplyRequest,
    now: string, appId: int, s: Store)
    requires appId !in s.applications && applicant.Some?
    requires req.postId == postId && postId in s.posts
    requires Some(s.posts[postId].employerId) == BearerToken(owner)
    ensures var applied := CreateApplication(applicant, req, now, appId, s);
            && applied.outcome == Ok
            && appId in applied.store.applications
            && var deleted := DeletePost(owner, postId, applied.store);
               && deleted.outcome == Ok
               && appId !in deleted.store.applications
               && postId !in deleted.store.posts
  {
  }

  /** The account handlers never touch posts or applications, so they keep
      every application's post in place. */
  lemma RegisterKeepsConsistent(body: Option<RegisterRequest>, hash: string -> string, freshId: string, s: Store)
    requires freshId !in s.accounts && Consistent(s)
    ensures Consistent(Register(body, hash, freshId, s).store)
  {
  }

  lemma AgreementsKeepConsistent(header: Option<string>, a: EmployerForms, s: Store)
    requires Consistent(s)
    ensures Consistent(UpdateEmployerAgreements(header, a, s).store)
  {
  }
}

=== FILE: store.dfy ===
/** The records the route handlers read and write, and the store that holds
    them: the `accounts`, `posts` and `applications` tables as maps keyed by
    `unique_id`, post id and application id. A handler's result is an HTTP
    outcome together with the store after the request. */
module Store {

  import opened Options
  import opened JsonValue

  /** A row of `accounts`. The key of the map is its `unique_id`, which is also
      the bearer token. `profile` is None when the stored text cannot be read
      as JSON. `account_type` is free text: nothing validates it. */
  datatype Account = Account(
    email: string,
    password: string,
    profile: Option<Json>,
    firstName: string,
    lastName: string,
    accountType: string)

  const Employer: string := "employer"
  const Administrator: string := "administrator"

  /** The `status` column of `posts`. No handler in this core moves a post out
      of Pending; only the listings read it. */
  datatype PostStatus = Pending | Accepted | Rejected

  /** A row of `posts`. `questions` is None when stored as SQL NULL. */
  datatype Post = Post(
    title: string,
    description: string,
    tags: string,
    documents: string,
    tips: string,
    skills: string,
    experience: string,
    jobtype: string,
    location: string,
    date: string,
    questions: Option<string>,
    companyName: string,
    employerId: string,
    status: PostStatus)

  /** The `status` column of `applications`: "pending", "accepted", "rejected". */
  datatype ApplicationStatus = AppPending | AppAccepted | AppRejected

  /** The two values the status endpoint accepts. */
  function RequestedStatus(text: string): (r: Option<ApplicationStatus>)
    ensures r == Some(AppAccepted) <==> text == "accepted"
    ensures r == Some(AppRejected) <==> text == "rejected"
    ensures r != Some(AppPending)
  {
    if text == "accepted" then Some(AppAccepted)
    else if text == "rejected" then Some(AppRejected)
    else None
  }

  /** A row of `applications`. `employerId` is copied from the post when the
      application is created. */
  datatype Application = Application(
    postId: int,
    applicantId: string,
    employerId: string,
    status: ApplicationStatus,
    answers: string,
    createdAt: string,
    updatedAt: string)

  datatype Store = Store(
    accounts: map<string, Account>,
    posts: map<int, Post>,
    applications: map<int, Application>)

  /** The HTTP status class of a response. `Aborted` is a handler that panics:
      no response is produced and nothing is written. */
  datatype Outcome = Ok | BadRequest | Unauthorized | Forbidden | NotFound | ServerError | Aborted

  datatype Reply = Reply(outcome: Outcome, store: Store)
}

=== FILE: text.dfy ===
/** String helpers shared by the handlers: lexicographic order (SQLite's BINARY
    collation on UTF-8 text agrees with code-point order), Rust's
    `char::is_whitespace`, `str::split_whitespace`, `str::replace` with an empty
    replacement, and the visible-ASCII test of an HTTP header value. */
module Text {

  // ---------------------------------------------------------------------------
  // Lexicographic order
  // ---------------------------------------------------------------------------

  /** a <= b in lexicographic order; a proper prefix sorts first. */
  predicate LexLe(a: string, b: string)
  {
    |a| == 0 || (|b| > 0 && (a[0] < b[0] || (a[0] == b[0] && LexLe(a[1..], b[1..]))))
  }

  lemma {:induction false} LexLeReflexive(a: string)
    ensures LexLe(a, a)
  {
    if |a| > 0 {
      LexLeReflexive(a[1..]);
    }
  }

  lemma {:induction false} LexLeTotal(a: string, b: string)
    ensures LexLe(a, b) || LexLe(b, a)
  {
    if |a| > 0 && |b| > 0 && a[0] == b[0] {
      LexLeTotal(a[1..], b[1..]);
    }
  }

  lemma {:induction false} LexLeTransitive(a: string, b: string, c: string)
    requires LexLe(a, b) && LexLe(b, c)
    ensures LexLe(a, c)
  {
    if |a| > 0 && a[0] == b[0] && b[0] == c[0] {
      LexLeTransitive(a[1..], b[1..], c[1..]);
    }
  }

  lemma {:induction false} LexLeAntisymmetric(a: string, b: string)
    requires LexLe(a, b) && LexLe(b, a)
    ensures a == b
  {
    if |a| > 0 {
      LexLeAntisymmetric(a[1..], b[1..]);
      assert a == [a[0]] + a[1..];
      assert b == [b[0]] + b[1..];
    }
  }

  // ---------------------------------------------------------------------------
  // Whitespace and split_whitespace
  // ---------------------------------------------------------------------------

  /** Rust's `char::is_whitespace`: the Unicode White_Space property. */
  predicate IsWhitespace(c: char)
  {
    ('\U{0009}' <= c <= '\U{000D}') || c == ' ' || c == '\U{0085}' || c == '\U{00A0}'
    || c == '\U{1680}' || ('\U{2000}' <= c <= '\U{200A}') || c == '\U{2028}' || c == '\U{2029}'
    || c == '\U{202F}' || c == '\U{205F}' || c == '\U{3000}'
  }

  predicate NoWhitespace(s: string)
  {
    forall i :: 0 <= i < |s| ==> !IsWhitespace(s[i])
  }

  /** A word of `split_whitespace`: non-empty and free of whitespace. */
  predicate IsWord(w: string)
  {
    |w| > 0 && NoWhitespace(w)
  }

  /** Length of the longest whitespace-free prefix of s. */
  function WordLength(s: string): (n: nat)
    ensures n <= |s|
    ensures NoWhitespace(s[..n])
    ensures n < |s| ==> IsWhitespace(s[n])
  {
    if |s| == 0 || IsWhitespace(s[0]) then 0
    else
      var k := WordLength(s[1..]);
      assert s[..k + 1] == [s[0]] + s[1..][..k];
      1 + k
  }

  /** Rust's `split_whitespace`: the maximal runs of non-whitespace, in order. */
  function Words(s: string): (ws: seq<string>)
    ensures forall i :: 0 <= i < |ws| ==> IsWord(ws[i])
    decreases |s|
  {
    if |s| == 0 then []
    else if IsWhitespace(s[0]) then Words(s[1..])
    else
      var n := WordLength(s);
      [s[..n]] + Words(s[n..])
  }

  /** `ws.join(sep)`. */
  function Join(ws: seq<string>, sep: string): string
  {
    if |ws| == 0 then ""
    else if |ws| == 1 then ws[0]
    else ws[0] + sep + Join(ws[1..], sep)
  }

  lemma {:induction false} WordLengthOfWordThenSpace(w: string, rest: string)
    requires IsWord(w)
    ensures WordLength(w + " " + rest) == |w|
    decreases |w|
  {
    var s := w + " " + rest;
    if |w| > 1 {
      assert s[1..] == w[1..] + " " + rest;
      WordLengthOfWordThenSpace(w[1..], rest);
    } else {
      assert s[1..] == " " + rest;
    }
  }

  lemma {:induction false} WordLengthOfWord(w: string)
    requires IsWord(w)
    ensures WordLength(w) == |w|
    decreases |w|
  {
    if |w| > 1 {
      WordLengthOfWord(w[1..]);
    }
  }

  /** Splitting words joined by single spaces gives the words back. */
  lemma {:induction false} WordsOfJoin(ws: seq<string>)
    requires forall i :: 0 <= i < |ws| ==> IsWord(ws[i])
    ensures Words(Join(ws, " ")) == ws
    decreases |ws|
  {
    if |ws| == 1 {
      var w := ws[0];
      WordLengthOfWord(w);
      assert w[..|w|] == w;
      assert w[|w|..] == "";
    } else if |ws| > 1 {
      var w, rest := ws[0], Join(ws[1..], " ");
      var s := w + " " + rest;
      assert Join(ws, " ") == s;
      WordLengthOfWordThenSpace(w, rest);
      assert s[..|w|] == w;
      assert s[|w|..] == " " + rest;
      assert (" " + rest)[1..] == rest;
      WordsOfJoin(ws[1..]);
      assert ws == [w] + ws[1..];
    }
  }

  /** Every character of s is whitespace. */
  predicate AllWhitespace(s: string)
  {
    forall i :: 0 <= i < |s| ==> IsWhitespace(s[i])
  }

  /** Leading whitespace yields no word. */
  lemma {:induction false} WordsAfterWhitespace(ws: string, s: string)
    requires AllWhitespace(ws)
    ensures Words(ws + s) == Words(s)
    decreases |ws|
  {
    if |ws| > 0 {
      assert (ws + s)[0] == ws[0];
      assert (ws + s)[1..] == ws[1..] + s;
      WordsAfterWhitespace(ws[1..], s);
      assert IsWhitespace((ws + s)[0]);
    } else {
      assert ws + s == s;
    }
  }

  /** What follows a word that already ends, or a whitespace character, does
      not lengthen the word. */
  lemma {:induction false} WordLengthAppend(s: string, t: string)
    requires WordLength(s) < |s| || (|t| > 0 && IsWhitespace(t[0]))
    ensures WordLength(s + t) == WordLength(s)
    decreases |s|
  {
    if |s| == 0 {
      assert s + t == t;
    } else if !IsWhitespace(s[0]) {
      assert (s + t)[0] == s[0];
      assert (s + t)[1..] == s[1..] + t;
      WordLengthAppend(s[1..], t);
    }
  }

  /** Trailing whitespace yields no word. */
  lemma {:induction false} WordsBeforeWhitespace(s: string, ws: string)
    requires AllWhitespace(ws)
    ensures Words(s + ws) == Words(s)
    decreases |s|
  {
    if |s| == 0 {
      assert s + ws == ws + s;
      WordsAfterWhitespace(ws, s);
    } else if IsWhitespace(s[0]) {
      assert (s + ws)[0] == s[0];
      assert (s + ws)[1..] == s[1..] + ws;
      WordsBeforeWhitespace(s[1..], ws);
    } else {
      var n := WordLength(s);
      if n < |s| || |ws| > 0 {
        WordLengthAppend(s, ws);
      } else {
        assert s + ws == s;
      }
      assert (s + ws)[0] == s[0];
      assert (s + ws)[..n] == s[..n];
      assert (s + ws)[n..] == s[n..] + ws;
      WordsBeforeWhitespace(s[n..], ws);
    }
  }

  /** A non-empty run of whitespace anywhere splits exactly as one space
      does. */
  lemma {:induction false} WordsCollapseRun(a: string, ws: string, b: string)
    requires |ws| > 0 && AllWhitespace(ws)
    ensures Words(a + ws + b) == Words(a + " " + b)
    decreases |a|
  {
    var s1, s2 := a + ws + b, a + " " + b;
    if |a| == 0 {
      assert s1 == ws + b && s2 == " " + b;
      WordsAfterWhitespace(ws, b);
      WordsAfterWhitespace(" ", b);
    } else if IsWhitespace(a[0]) {
      assert s1[0] == a[0] && s2[0] == a[0];
      assert s1[1..] == a[1..] + ws + b && s2[1..] == a[1..] + " " + b;
      WordsCollapseRun(a[1..], ws, b);
    } else {
      var n := WordLength(a);
      assert s1 == a + (ws + b) && s2 == a + (" " + b);
      WordsFirstOfAppend(a, ws + b);
      WordsFirstOfAppend(a, " " + b);
      assert a[n..] + (ws + b) == a[n..] + ws + b;
      assert a[n..] + (" " + b) == a[n..] + " " + b;
      WordsCollapseRun(a[n..], ws, b);
    }
  }

  /** The first word of a + t lies within a when a's first word ends inside
      a or t starts with whitespace. */
  lemma WordsFirstOfAppend(a: string, t: string)
    requires |a| > 0 && !IsWhitespace(a[0])
    requires WordLength(a) < |a| || (|t| > 0 && IsWhitespace(t[0]))
    ensures Words(a + t) == [a[..WordLength(a)]] + Words(a[WordLength(a)..] + t)
  {
    var n := WordLength(a);
    WordLengthAppend(a, t);
    assert (a + t)[0] == a[0];
    assert (a + t)[..n] == a[..n];
    assert (a + t)[n..] == a[n..] + t;
  }

  /** A word followed by whitespace is split off as the first word. */
  lemma WordsAfterWord(w: string, rest: string)
    requires IsWord(w) && |rest| > 0 && IsWhitespace(rest[0])
    ensures Words(w + rest) == [w] + Words(rest)
  {
    var s := w + rest;
    WordLengthBeforeWhitespace(w, rest);
    assert s[..|w|] == w;
    assert s[|w|..] == rest;
  }

  lemma {:induction false} WordLengthBeforeWhitespace(w: string, rest: string)
    requires NoWhitespace(w) && |rest| > 0 && IsWhitespace(rest[0])
    ensures WordLength(w + rest) == |w|
    decreases |w|
  {
    if |w| > 0 {
      assert (w + rest)[1..] == w[1..] + rest;
      WordLengthBeforeWhitespace(w[1..], rest);
    }
  }

  // ---------------------------------------------------------------------------
  // Removing every occurrence of a pattern (`s.replace(pat, "")`)
  // ---------------------------------------------------------------------------

  /** pat occurs in s at position i. */
  predicate OccursAt(s: string, pat: string, i: int)
  {
    0 <= i && i + |pat| <= |s| && s[i..i + |pat|] == pat
  }

  ghost predicate Occurs(s: string, pat: string)
  {
    exists i :: OccursAt(s, pat, i)
  }

  /** Rust's `s.replace(pat, "")`: leftmost non-overlapping occurrences are
      removed, scanning left to right. */
  function RemoveAll(s: string, pat: string): (r: string)
    requires |pat| > 0
    ensures |r| <= |s|
    decreases |s|
  {
    if |s| < |pat| then s
    else if s[..|pat|] == pat then RemoveAll(s[|pat|..], pat)
    else [s[0]] + RemoveAll(s[1..], pat)
  }

  /** A string without the pattern passes through unchanged. */
  lemma {:induction false} RemoveAllAbsent(s: string, pat: string)
    requires |pat| > 0
    requires !Occurs(s, pat)
    ensures RemoveAll(s, pat) == s
    decreases |s|
  {
    if |s| >= |pat| {
      assert !OccursAt(s, pat, 0);
      assert s[..|pat|] != pat;
      forall i | OccursAt(s[1..], pat, i)
        ensures false
      {
        assert s[1..][i..i + |pat|] == s[i + 1..i + 1 + |pat|];
        assert OccursAt(s, pat, i + 1);
      }
      RemoveAllAbsent(s[1..], pat);
      assert s == [s[0]] + s[1..];
    }
  }

  /** A pattern containing a character that s lacks does not occur in s. */
  lemma AbsentCharMeansNoOccurrence(s: string, pat: string, c: char)
    requires c in pat && c !in s
    ensures !Occurs(s, pat)
  {
  }

  // ---------------------------------------------------------------------------
  // HTTP header values
  // ---------------------------------------------------------------------------

  /** http's `HeaderValue::to_str` succeeds only on visible ASCII and tab. */
  predicate IsVisibleAscii(s: string)
  {
    forall i :: 0 <= i < |s| ==> (' ' <= s[i] <= '~') || s[i] == '\t'
  }
}

=== FILE: uploads.dfy ===
/** The pure parts of src/utils/routes/misc.rs: the name `upload` stores a
    file under and the URL it answers with, and the content type `serve_file`
    derives from a stored file's extension. */
module Uploads {

  import opened Options

  // ---------------------------------------------------------------------------
  // Finding a character from the right
  // ---------------------------------------------------------------------------

  /** The index of the last c in s, if any. */
  function LastIndexOf(s: string, c: char): (r: Option<nat>)
    ensures r.None? <==> c !in s
    ensures r.Some? ==> r.value < |s| && s[r.value] == c
    ensures r.Some? ==> forall j :: r.value < j < |s| ==> s[j] != c
    decreases |s|
  {
    if |s| == 0 then None
    else if s[|s| - 1] == c then Some(|s| - 1)
    else
      var r := LastIndexOf(s[..|s| - 1], c);
      assert s == s[..|s| - 1] + [s[|s| - 1]];
      r
  }

  /** `s.rsplit(c).next()`: the text after the last c, or all of s. */
  function AfterLast(s: string, c: char): (r: string)
    ensures c !in r
    ensures c !in s ==> r == s
    ensures c in s ==> exists i :: 0 <= i < |s| && s[i] == c && r == s[i + 1..]
  {
    match LastIndexOf(s, c)
    case None => s
    case Some(i) =>
      s[i + 1..]
  }

  // ---------------------------------------------------------------------------
  // upload
  // ---------------------------------------------------------------------------

  /** The name used when a multipart field carries no filename. */
  const UnknownFile: string := "unknown_file"

  /** Where a stored file is announced. */
  const UrlPrefix: string := "172.20.10.8:8080/uploads/"

  /** The extension `upload` keeps: the text after the last '.' of the
      original filename, or the whole filename when it has no '.'. */
  function UploadExtension(filename: Option<string>): (ext: string)
    ensures '.' !in ext
    ensures filename.None? ==> ext == UnknownFile
    ensures filename.Some? && '.' !in filename.value ==> ext == filename.value
    ensures filename.Some? && '.' in filename.value ==>
      exists i :: 0 <= i < |filename.value| && filename.value[i] == '.'
                  && ext == filename.value[i + 1..]
  {
    var name := match filename case None => UnknownFile case Some(n) => n;
    AfterLast(name, '.')
  }

  /** `format!("{}.{}", uuid, extension)`. */
  function StoredName(uuid: string, filename: Option<string>): (name: string)
    ensures |name| == |uuid| + 1 + |UploadExtension(filename)|
    ensures name[..|uuid|] == uuid && name[|uuid|] == '.'
    ensures name[|uuid| + 1..] == UploadExtension(filename)
  {
    uuid + "." + UploadExtension(filename)
  }

  /** `upload` over the fields of one request: every field is stored under a
      fresh name (uuids[i] for field i), and the URL reports the last one,
      or no name at all when there were no fields. */
  method Upload(fields: seq<Option<string>>, uuids: seq<string>) returns (fileUrl: string)
    requires |uuids| == |fields|
    ensures |fields| == 0 ==> fileUrl == UrlPrefix
    ensures |fields| > 0 ==>
      fileUrl == UrlPrefix + StoredName(uuids[|fields| - 1], fields[|fields| - 1])
  {
    var newFilename := "";
    var i := 0;
    while i < |fields|
      invariant 0 <= i <= |fields|
      invariant i == 0 ==> newFilename == ""
      invariant i > 0 ==> newFilename == StoredName(uuids[i - 1], fields[i - 1])
    {
      newFilename := StoredName(uuids[i], fields[i]);
      i := i + 1;
    }
    fileUrl := UrlPrefix + newFilename;
  }

  // ---------------------------------------------------------------------------
  // serve_file
  // ---------------------------------------------------------------------------

  /** `Path::extension` of "./src/uploads/<filename>" for a one-segment
      filename: the text after the last '.', except that there is none when
      the name has no '.', when its only '.' is its first character, and for
      "..". */
  function ServedExtension(filename: string): (ext: Option<string>)
    ensures ext.Some? ==> '.' !in ext.value
    ensures '.' !in filename ==> ext.None?
    ensures filename == ".." ==> ext.None?
    ensures ext.Some? ==> exists i :: 0 < i < |filename| && filename[i] == '.'
                                      && ext.value == filename[i + 1..]
    ensures filename != ".." && LastIndexOf(filename, '.').Some? && LastIndexOf(filename, '.').value > 0 ==>
      ext == Some(filename[LastIndexOf(filename, '.').value + 1..])
  {
    if filename == ".." then None
    else
      match LastIndexOf(filename, '.')
      case None => None
      case Some(i) =>
        if i == 0 then None
        else
          Some(filename[i + 1..])
  }

  const OctetStream: string := "application/octet-stream"

  /** The content type table of `serve_file`. Matching is exact, so "JPG"
      and a missing extension both fall through to the default. */
  function ContentType(ext: Option<string>): (t: string)
    ensures ext == Some("jpg") || ext == Some("jpeg") <==> t == "image/jpeg"
    ensures ext == Some("png") <==> t == "image/png"
    ensures ext == Some("gif") <==> t == "image/gif"
    ensures ext == Some("mp4") <==> t == "video/mp4"
    ensures ext == Some("mp3") <==> t == "audio/mpeg"
    ensures ext == Some("wav") <==> t == "audio/wav"
    ensures ext == Some("pdf") <==> t == "application/pdf"
    ensures t == OctetStream <==>
      ext !in {Some("jpg"), Some("jpeg"), Some("png"), Some("gif"), Some("mp4"),
               Some("mp3"), Some("wav"), Some("pdf")}
  {
    match ext
    case Some("jpg") => "image/jpeg"
    case Some("jpeg") => "image/jpeg"
    case Some("png") => "image/png"
    case Some("gif") => "image/gif"
    case Some("mp4") => "video/mp4"
    case Some("mp3") => "audio/mpeg"
    case Some("wav") => "audio/wav"
    case Some("pdf") => "application/pdf"
    case _ => OctetStream
  }

  /** A file stored by `upload` is served with the type of the extension it
      was uploaded with: the '.' `upload` inserts is the last one in the
      stored name and is not its first character. */
  lemma {:induction false} ServedExtensionOfStoredName(uuid: string, filename: Option<string>)
    requires |uuid| > 0 && '.' !in uuid
    ensures ServedExtension(StoredName(uuid, filename)) == Some(UploadExtension(filename))
  {
    var name := StoredName(uuid, filename);
    assert name[0] == uuid[0] && uuid[0] != '.';
    match LastIndexOf(name, '.')
    case None =>
      assert false;
    case Some(i) =>
      if i != |uuid| {
        assert false;
      }
  }

  /** Hence the content type of a stored upload is decided by its original
      extension alone. */
  lemma ServedTypeOfUpload(uuid: string, filename: Option<string>)
    requires |uuid| > 0 && '.' !in uuid
    ensures ContentType(ServedExtension(StoredName(uuid, filename)))
         == ContentType(Some(UploadExtension(filename)))
  {
    ServedExtensionOfStoredName(uuid, filename);
  }
}

=== FILE: users.dfy ===
/** `NewUser` of src/data/new_user.rs: building a new account with its default
    profile, storing it (`dump`), and the two lookups `get_by_uuid` and
    `get_by_email`. Password hashing is a parameter: the source calls Argon2
    with a random salt and a secret from the environment. */
module Users {

  import opened Options
  import opened JsonValue
  import opened Profile
  import opened Store

  /** What `NewUser::new` returns: the fresh `unique_id` and the row to store. */
  datatype NewUser = NewUser(uniqueId: string, account: Account)

  /** An account as the lookups return it, with its profile decoded. */
  datatype UserRecord = UserRecord(
    email: string,
    password: string,
    uniqueId: string,
    profile: ProfileInfo,
    firstName: string,
    lastName: string,
    accountType: string)

  /** `NewUser::new`: the given names, email and type are kept as given, the
      password is replaced by its hash, the id is the fresh one, and the
      profile is the default one. */
  function CreateUser(email: string, password: string, firstName: string, lastName: string,
                      accountType: string, hash: string -> string, freshId: string): (u: NewUser)
    ensures u.uniqueId == freshId
    ensures u.account.email == email && u.account.firstName == firstName
    ensures u.account.lastName == lastName && u.account.accountType == accountType
    ensures u.account.password == hash(password)
    ensures u.account.profile.Some? && Decode(u.account.profile.value) == Some(DefaultProfile())
    ensures !PassesOnboarding(u.account.profile.value)
  {
    DecodeEncode(DefaultProfile());
    DefaultProfileFailsOnboarding();
    NewUser(freshId, Account(email, hash(password), Some(Encode(DefaultProfile())),
                             firstName, lastName, accountType))
  }

  /** `dump`: insert the row. */
  function Dump(accounts: map<string, Account>, u: NewUser): (r: map<string, Account>)
    requires u.uniqueId !in accounts
    ensures r.Keys == accounts.Keys + {u.uniqueId}
    ensures r[u.uniqueId] == u.account
    ensures forall k :: k in accounts ==> r[k] == accounts[k]
  {
    accounts[u.uniqueId := u.account]
  }

  datatype LookupError = NoRow | ProfileUnreadable

  datatype Lookup = Found(user: UserRecord) | Failed(error: LookupError)

  /** The profile of a row decodes as `ProfileInfo`. */
  predicate Readable(a: Account)
  {
    a.profile.Some? && Decode(a.profile.value).Some?
  }

  function RecordOf(uniqueId: string, a: Account): UserRecord
    requires Readable(a)
  {
    UserRecord(a.email, a.password, uniqueId, Decode(a.profile.value).value,
               a.firstName, a.lastName, a.accountType)
  }

  /** `get_by_uuid`: the row whose `unique_id` is uuid; an error when there is
      none or when its profile does not decode. */
  function GetByUuid(accounts: map<string, Account>, uuid: string): (r: Lookup)
    ensures r == Failed(NoRow) <==> uuid !in accounts
    ensures r == Failed(ProfileUnreadable) <==> uuid in accounts && !Readable(accounts[uuid])
    ensures r.Found? ==> r.user.uniqueId == uuid && uuid in accounts
                         && r.user.email == accounts[uuid].email
                         && r.user.accountType == accounts[uuid].accountType
                         && accounts[uuid].profile.Some?
                         && Decode(accounts[uuid].profile.value) == Some(r.user.profile)
    ensures r.Found? ==> uuid in accounts && Readable(accounts[uuid])
                         && r.user.password == accounts[uuid].password
                         && r.user.firstName == accounts[uuid].firstName
                         && r.user.lastName == accounts[uuid].lastName
  {
    if uuid !in accounts then Failed(NoRow)
    else if !Readable(accounts[uuid]) then Failed(ProfileUnreadable)
    else Found(RecordOf(uuid, accounts[uuid]))
  }

  /** A stored new user is found again by its id, exactly as it was built. */
  lemma GetByUuidAfterDump(accounts: map<string, Account>, email: string, password: string,
                           firstName: string, lastName: string, accountType: string,
                           hash: string -> string, freshId: string)
    requires freshId !in accounts
    ensures GetByUuid(Dump(accounts, CreateUser(email, password, firstName, lastName, accountType, hash, freshId)), freshId)
         == Found(UserRecord(email, hash(password), freshId, DefaultProfile(), firstName, lastName, accountType))
  {
  }

  /** `get_by_email`: `query_row` takes the first row with that email (the
      table has no unique constraint on email, so which one is left open) and
      every error, including "no row" and an undecodable profile, becomes
      None. */
  method GetByEmail(accounts: map<string, Account>, email: string) returns (r: Option<UserRecord>)
    ensures r.Some? ==> r.value.uniqueId in accounts
                        && accounts[r.value.uniqueId].email == email
                        && Readable(accounts[r.value.uniqueId])
                        && r.value == RecordOf(r.value.uniqueId, accounts[r.value.uniqueId])
    ensures (forall k :: k in accounts ==> accounts[k].email != email) ==> r.None?
    ensures (exists k :: k in accounts && accounts[k].email == email)
            && (forall k :: k in accounts && accounts[k].email == email ==> Readable(accounts[k]))
            ==> r.Some?
  {
    if k :| k in accounts && accounts[k].email == email {
      if Readable(accounts[k]) {
        return Some(RecordOf(k, accounts[k]));
      }
    }
    return None;
  }
}
